=== FILE: README.md ===
# Property lookup service, modelled in Dafny

The service answers `GET /property_details/{zpid}`. It asks a RapidAPI real
estate endpoint for a property's details. When the lookup succeeds with data,
it works out the address, the price, the description, the rooms and the
`resoFacts` fields. It then asks OpenWeatherMap for the weather in the
property's city and Google Places for schools, hospitals and stores near the
property's coordinates. Everything it finds is printed to the console.

This project models the decisions behind that, with the printing taken out:

- `Values` — Python values as the handler sees them after JSON decoding
  (`None`, booleans, integers, floats, strings, lists, dicts with ordered
  members), their truthiness, `dict.get`, iteration, `[0]` and `[:n]`. Every
  operation that would raise in Python gives `Raised` (module `Wrappers`).
- `Text` — ASCII whitespace and character classes, `str.strip`,
  `str.split()`, joining, splitting into lines, and decimal numerals.
- `Fields` — the helpers nested in the route handler: `format_number`,
  `get_formatted_chip_value` and `format_description`. The last is modelled
  twice: as its loop, statement by statement, and as a functional definition
  the loop is proved equal to.
- `Address` — `extract_address_from_description` and its regular expression
  `(\d+\s[\w\s]+),\s([\w\s]+),\s([A-Z]{2})\s(\d{5})`. A declarative reading of
  the pattern (`PatternAt`) is matched by a deterministic matcher (`MatchAt`),
  proved sound and complete against it. `re.search` is the leftmost match.
- `Client` — the request side of `APIClient`: the headers its constructor
  builds, the URL `_make_request` forms, and the query parameters of the
  three lookups.
- `Handler` — `get_property_details` and `print_property_details` as one
  pure function over the upstream replies. Its result is what the handler
  returns (or that it raised), the trace of lookups it made, in order, and
  the facts it worked out.

Some behaviours of the code as written are kept as they are:

- The success path returns `None`; only a failed lookup returns the
  message body.
- The zip code warning compares the zip code with the placeholder text. It
  fires only when a stored address carries that text: the extractor's zip
  code is five digits, and a missing zip code is `None`.
- A coordinate of `0` counts as missing.
- A price or Zestimate that `format_number` cannot coerce raises when it is
  formatted with a thousands separator.
- An empty `weather` list in the weather reply raises on `[0]`.

## Model

| member | source | states |
|---|---|---|
| Values.Get | main.py:70-74 | `d.get(key, default)` raises exactly when `d` is not a dict; on a dict it gives the value of the first member stored under `key`, or the default when no member carries it |
| Values.Lookup | main.py:121-124 | a key that no member carries gives the default; otherwise the result is the value of the first member stored under that key |
| Values.First | main.py:137 | `[0]` succeeds exactly on a non-empty list or string; it gives the list's first item, or the string's first character as a one-character string |
| Values.Take | main.py:153 | `[:n]` succeeds exactly on a list or string and keeps the first `min(n, len)` items, or characters, in order |
| Values.Iter | main.py:125-127 | iteration succeeds on lists, strings and dicts only: a list yields its items, a string its one-character strings, a dict its keys in order; it is empty exactly for a falsy value |
| Text.Strip | utils.py:28-31 | `strip()` gives a slice of the input that neither starts nor ends with whitespace, and is empty exactly when the input is all whitespace |
| Text.StripRemovesSpace | utils.py:28-31 | every character `strip()` drops is whitespace |
| Text.Words | main.py:48 | `split()` gives non-empty words with no whitespace in them |
| Text.WordsOfWord | main.py:48 | a single word splits into exactly itself |
| Text.WordsSplitAt | main.py:48 | splitting text around one whitespace character gives the words before it followed by the words after it |
| Text.WordsOfJoin | main.py:52-56 | splitting words joined by single spaces gives back the same words |
| Fields.FormatNumber | main.py:22-30 | a non-negative number is kept as it is; a string is coerced exactly when it is digits with at most one dot and at least one digit, to a whole number without a dot and to a decimal with one; everything else gives the placeholder; a non-placeholder result is never negative |
| Fields.NumeralShape | main.py:28 | `value.replace('.', '', 1).isdigit()` holds exactly for strings of digits and dots with at most one dot and at least one digit |
| Fields.DropFirstDotDigits | main.py:28 | removing the first dot leaves only digits exactly when the string has only digits and dots and at most one dot |
| Fields.FormatNumberOfShown | main.py:28-29 | the decimal text of a natural number is coerced back to that number |
| Fields.FirstFact | main.py:36-39 | the scan skips dicts of other element types; the first dict of the wanted type gives its `fullValue`, even when that is missing; a non-dict before it raises; no match gives the placeholder |
| Fields.FullValue | main.py:38 | `fact.get('value', {}).get('fullValue', …)` raises exactly when the stored `value` is not a dict; a missing `value`, or a `value` dict without `fullValue`, gives the placeholder; a `value` dict holding `fullValue` gives the first value stored under it |
| Fields.FirstMatchWithoutFullValue | main.py:36-38 | when the first fact of the wanted type has a `value` dict without `fullValue`, the scan gives the placeholder and looks no further |
| Fields.ChipValue | main.py:32-39 | a chip that is not a dict raises; a missing or empty `quickFacts` gives the placeholder; a list is scanned as `FirstFact` says; a truthy string or dict raises, because its first item is a string with no `get`; a non-iterable raises |
| Fields.Describe | main.py:41-57 | a falsy description gives the placeholder; a truthy non-string raises; a string gives text with the same words in the same order; an all-whitespace string gives the empty text |
| Fields.FormatDescription | main.py:41-57 | the loop, statement by statement, computes exactly the functional `Describe` |
| Fields.WordsOfBlankDescription | main.py:45-56 | an all-whitespace description has no words, so it wraps to the empty text |
| Fields.FlushLine | main.py:52-56 | flushing a line of at most ten words after whole lines extends the wrapped text, with a break after exactly ten words |
| Fields.WrapWords | main.py:48-56 | splitting the wrapped text gives back exactly the input words |
| Fields.WrapBreaks | main.py:51-56 | the wrapped text holds exactly `n / 10` line breaks for `n` words |
| Fields.WrapLines | main.py:51-56 | the wrapped text has `n / 10 + 1` lines, and line `i` is words `10i` to `10i + 9` joined by single spaces |
| Fields.LineWords | main.py:51-55 | every line of the wrapped text has at most ten words |
| Fields.WrapTrailingBreak | main.py:53-56 | the wrapped text ends with a line break exactly when the word count is a positive multiple of ten |
| Address.MatchAt | utils.py:24 | a match found at a position starts there and fits inside the text |
| Address.MatchAtSound | utils.py:24 | what the matcher finds is a match of the pattern |
| Address.MatchAtComplete | utils.py:24 | every match of the pattern at a position is what the matcher finds there |
| Address.MatchUnique | utils.py:24 | the pattern matches at most one way at a given position |
| Address.NoMatchNoPattern | utils.py:24 | where the matcher finds nothing, the pattern does not match |
| Address.Search | utils.py:25 | `re.search` gives a match that starts before every other match, or nothing exactly when no match exists |
| Address.SearchFinds | utils.py:25 | a leftmost match is the one `re.search` returns |
| Address.PatternStartsWithDigit | utils.py:24 | every match starts with a digit |
| Address.PatternShapes | utils.py:24-31 | the groups of a match are a digit run, whitespace and `[\w\s]` characters; `[\w\s]` characters; two capitals; five digits |
| Address.StreetStripped | utils.py:28 | a stripped street group starts with a digit, the first character after its number (if any) is whitespace, it has no comma and no trailing whitespace |
| Address.CityStripped | utils.py:29 | a stripped city group has no comma and nothing left to strip |
| Address.StrippedWellFormed | utils.py:28-31 | stripping the four groups of a match gives a well-formed address |
| Address.ExtractAddress | utils.py:17-33 | a falsy description gives four `None`s; a truthy non-string raises; a string never raises; a found address has a two-capital state, a five-digit zip code, a street starting with its number and no comma in street or city, all stripped |
| Address.ExtractLeftmost | utils.py:25-32 | the extractor returns the stripped groups of the leftmost match |
| Address.ExtractNothing | utils.py:17-33 | for any string description, the result is four `None`s exactly when no substring matches |
| Address.LayoutPattern | utils.py:24 | `street, City, ST 12345` written out with well-shaped parts matches the pattern at its position |
| Address.LayoutGroups | utils.py:24-31 | the groups of that match are the parts written out |
| Address.ExtractAfterText | utils.py:24-32 | an address written after text without digits is extracted, whatever follows it |
| Address.ExtractExample | utils.py:24-32 | `"Nice home at 123 Main St, Springfield, IL 62701 near the lake"` gives `("123 Main St", "Springfield", "IL", "62701")` |
| Client.Headers | api_client.py:11-19 | both JSON headers always; `Authorization` exactly when the API key is truthy, as `Bearer <key>`; both RapidAPI headers exactly when key and host are both truthy; no other header name |
| Client.RapidPairOrNothing | api_client.py:17-19 | with one RapidAPI value missing or empty, neither RapidAPI header is set, as if both were missing |
| Client.NoKeyNoBearer | api_client.py:15-19 | without an API key there is no `Authorization` header, and there are two headers, or four with the RapidAPI pair |
| Client.Url | api_client.py:22 | the URL is the base URL, a slash, and the endpoint |
| Client.UrlEndpoint | api_client.py:22 | under one base URL, two endpoints give the same URL exactly when they are equal |
| Client.Send | api_client.py:21-67 | every lookup is a GET; the property lookup goes to `properties/details` under the base URL with the client's headers and only `zpid`; the weather lookup sends `q`, `appid` and `units=metric`; the places lookup sends location, radius, type and key; neither third-party lookup sends headers |
| Client.CredentialsStayHome | api_client.py:21-69 | only the property lookup sends headers, so the RapidAPI key never reaches the weather or places services |
| Client.CoordinatesText | api_client.py:63 | the location text of coordinates the model can render (`None`, booleans, integers and strings; not floats, lists or dicts, see Left out) |
| Client.CoordinatesSplit | api_client.py:63 | the first comma of the location text separates the two coordinates again when the latitude's text has none |
| Handler.Stored | main.py:70-74 | reading the stored address succeeds exactly when the data and its `address` are dicts |
| Handler.ResolveAddress | main.py:70-79 | four truthy stored fields are kept; otherwise all four come from the extractor, even when it finds nothing; a raise in either raises; the zip code is the placeholder text only when it was stored |
| Handler.AddressAllOrNothing | main.py:77-79 | the address is the stored one, four `None`s, or one well-formed extracted address, never a mix |
| Handler.WithChip | main.py:104-117 | the chip is consulted exactly when `format_number` of the primary field gives the placeholder; otherwise the coerced value is kept |
| Handler.JoinItems | main.py:125-127 | joining succeeds exactly when the value is iterable and every item is a string; an empty list gives the empty text, a one-item list its string, and the default list the placeholder |
| Handler.JoinItemsOfString | main.py:125-127 | joining a string succeeds and joins its one-character strings, so `"gas"` gives `"g, a, s"` |
| Handler.JoinItemsOfDict | main.py:125-127 | joining a dict succeeds and joins its keys in order |
| Handler.JoinItemsCons | main.py:125-127 | a list of two or more strings joins to its first string, `", "`, and the join of the rest, so the join keeps every item in order |
| Handler.Amounts | main.py:91-94 | when price and Zestimate are formatted they are the coerced values, neither being the placeholder |
| Handler.AmountsRaise | main.py:91-94 | formatting with a thousands separator raises exactly when price or Zestimate coerces to the placeholder |
| Handler.Rooms | main.py:101-117 | bathrooms, bedrooms and area come from the chip exactly when their primary field coerces to the placeholder, and are then the chip's value, and the coerced values otherwise; the run gets past them exactly when every chip lookup it makes succeeds |
| Handler.Lists | main.py:121-127 | each heating, cooling or flooring line is the join of the stored list, and a missing list shows the placeholder |
| Handler.ListsRaise | main.py:125-127 | the three joins raise exactly when one stored list cannot be joined |
| Handler.FrontFacts | main.py:70-98 | the first stages succeed exactly when the address resolves, the amounts format and the description wraps, and then hold those results |
| Handler.BackFacts | main.py:101-127 | the later stages succeed exactly when the rooms succeed, `resoFacts` is a dict and the lists join, and then hold those results and the home type, year built and lot size stored in `resoFacts` |
| Handler.Details | main.py:67-127 | the facts are worked out exactly when both groups of stages succeed, and then every field is the one those stages give: the resolved address, amounts and description, the rooms, the home type, year built and lot size, and the joined lists; the zip warning shows exactly when the zip code is the placeholder, which happens only for a complete stored address |
| Handler.DetailsFields | main.py:91-117 | the facts hold two formatted amounts, the wrapped description, and the chip's value exactly where the primary field coerces to the placeholder |
| Handler.FrontWithoutDescription | main.py:91-98 | with no description, the first stages succeed exactly when the address resolves and the amounts format |
| Handler.BackWithoutOptional | main.py:101-127 | a record with no chip, no `resoFacts` and no primary room fields passes the later stages |
| Handler.ReadWeather | main.py:135-138 | a falsy reply shows nothing; a truthy non-dict raises, and so does a non-dict `main`, a `weather` that is not a list, an empty `weather` list or a non-dict first entry; when `main` is a dict and the first `weather` entry a dict, the forecast is that entry's description and `main.temp` |
| Handler.Names | main.py:153-154 | the names are `item.get('name')` for each item in order, and exist exactly when every item is a dict |
| Handler.Category | main.py:150-154 | a category is shown only for a truthy reply with truthy results, and then it keeps the names of the first `min(3, len)` results in order; a dict reply with falsy results shows nothing; for truthy results the category is shown exactly when they are a list whose first three items are dicts, and raises otherwise |
| Handler.Places | main.py:149-168 | the places lookups go school, hospital, store; one lookup exactly when the schools raise, two exactly when the hospitals raise after them; each category is read as `Category` says |
| Handler.PlacesCalls | main.py:150-164 | the three places lookups are for schools, hospitals and stores, in that order, at the stored coordinates and the default radius of 5000 |
| Handler.WeatherCalls | main.py:133-134 | one weather lookup exactly when the city is truthy, for that city |
| Handler.Lookups | main.py:133-170 | weather is asked for exactly when the city is truthy, first; places are asked for exactly when the weather did not raise and both coordinates are truthy, after it, in the order school, hospital, store; the run succeeds exactly when the weather read and the places read succeed where they are made, and reports what they read |
| Handler.Finish | main.py:133-170 | after the property lookup the weather comes second, exactly for a truthy city; places come after it, at the stored coordinates, exactly when both are truthy and the weather did not raise; the handler returns `None` exactly when those lookups succeed, with their report |
| Handler.FinishWithoutPlaces | main.py:133-170 | with a truthy city, a falsy weather reply and no latitude, the weather is looked up and shows nothing, no place is looked up, and the handler returns `None` |
| Handler.Proceed | main.py:67-170 | the run gets past the facts exactly when working them out does not raise, and otherwise makes no lookup after the property |
| Handler.Handle | main.py:179-185 | the property lookup comes first; a falsy reply or status returns exactly the failure message and makes no further lookup; a truthy reply that is not a dict raises with no further lookup; empty data returns `None` with no further lookup; a success returns `None` |
| Handler.PlaceholderPriceRaises | main.py:91-94 | a price or Zestimate that coerces to the placeholder makes the handler raise before any weather or places lookup |
| Handler.CompleteRun | main.py:70-185 | a successful lookup whose data holds a complete address and integer price and Zestimate, with a falsy weather reply: the facts are the stored ones, the weather is looked up for the stored city, no place is looked up, and the handler returns `None` |

## Left out

- The FastAPI app, its routes and the server start-up: framework glue. An
  exception is modelled as `Raised`; the error response FastAPI makes of it
  is not.
- Printing: `print_color`, the colour table and colorama. No printed text
  is modelled, including the `or 'No se encontró dato'` fallbacks used only
  in printed lines.
- Networking: `requests`, `raise_for_status` and JSON decoding. The client
  is abstract. Each lookup's decoded reply is an input, and a failed request
  is answered by `None`, as the client returns then.
- The `config` module is not part of this model. The base URL and the keys
  are parameters.
- Floating point: `float(value)` is kept as the decimal text it came from.
  The thousands formatting of a number is modelled only by whether it
  raises. The text of a float coordinate in `f"{lat},{lon}"` is not
  modelled.
- `Client.CoordinatesText`: the text of a list or dict coordinate
  (`str` of a list or dict) is not modelled either. Such a coordinate has
  no text in the model.
- Non-finite JSON numbers: Python's `json` decodes `NaN`, `Infinity` and
  `-Infinity`, and `Values.Value` cannot hold them. In the source a `NaN`
  price fails `value >= 0`, so `format_number` gives the placeholder and
  the thousands formatting raises. An infinite price is kept, and
  `f"{inf:,}"` prints `inf` without raising. Neither case is modelled.
- Unicode: `\w`, `\d`, `\s` and `isdigit` are the ASCII classes.
- Python exception kinds are not distinguished. Every raise is `Raised`.
- Unicode whitespace: `str.split()` and `str.strip()` also treat
  characters such as U+00A0, U+0085 and U+3000 as whitespace; `Text.IsSpace`
  is the ASCII set only.
- CPython refuses `int()` of a string with more than 4300 digits and raises
  `ValueError`; `Fields.FormatNumber` gives the whole number for any length.
- `get_nearby_places` has a default place type of `school`; the handler
  always passes one, so the default is not modelled.

=== FILE: address.dfy ===
/** `extract_address_from_description` (utils.py): recovers
    `street, City, ST 12345` from free text with the regular expression
    `(\d+\s[\w\s]+),\s([\w\s]+),\s([A-Z]{2})\s(\d{5})` and `re.search`.

    A match is described by its span, as Python's match object keeps it: where
    it starts and where the first two groups end (the last two groups have a
    fixed width). Every step of the pattern is a greedy run of one character
    class that must be followed by a character outside the class (a digit run
    by whitespace, a `[\w\s]` run by a comma), so backtracking can never choose
    a shorter run: at each position the pattern matches in at most one way.
    `MatchAt` computes that one way directly; `PatternAt` states the pattern
    declaratively, and the two are proved to agree. */
module Address {
  import opened Wrappers
  import opened Values
  import opened Text

  /** The regular expression class `[\w\s]`. */
  predicate IsWordOrSpace(c: char) {
    IsWordChar(c) || IsSpace(c)
  }

  predicate AllWordOrSpace(s: string) {
    forall i :: 0 <= i < |s| ==> IsWordOrSpace(s[i])
  }

  /** Every character of `s[lo..hi]` is a digit. */
  predicate DigitsBetween(s: string, lo: nat, hi: nat)
    requires hi <= |s|
  {
    forall i :: lo <= i < hi ==> IsDigit(s[i])
  }

  /** Every character of `s[lo..hi]` is in `[\w\s]`. */
  predicate WordOrSpaceBetween(s: string, lo: nat, hi: nat)
    requires hi <= |s|
  {
    forall i :: lo <= i < hi ==> IsWordOrSpace(s[i])
  }

  /** Where a match starts and where its street and city groups end. */
  datatype Span = Span(pos: nat, streetEnd: nat, cityEnd: nat)

  /** The four capture groups of a match, before stripping. */
  datatype Groups = Groups(street: string, city: string, state: string, zip: string)

  /** The result of the extractor when a match is found. */
  datatype Address = Address(street: string, city: string, state: string, zipcode: string)

  // ================================================================ the pattern, declaratively

  /** `s[p..e]` is in the language of `\d+\s[\w\s]+`. */
  ghost predicate StreetAt(s: string, p: nat, e: nat)
    requires e <= |s|
  {
    exists k :: p < k < e - 1 && DigitsBetween(s, p, k) && IsSpace(s[k]) && WordOrSpaceBetween(s, k + 1, e)
  }

  /** `,\s` at position `c`. */
  predicate SepAt(s: string, c: nat) {
    c + 1 < |s| && s[c] == ',' && IsSpace(s[c + 1])
  }

  /** `,\s[A-Z]{2}\s\d{5}` at position `c`: everything after the city. */
  predicate TailAt(s: string, c: nat) {
    && c + 10 <= |s| && SepAt(s, c)
    && IsUpper(s[c + 2]) && IsUpper(s[c + 3]) && IsSpace(s[c + 4])
    && (forall i :: c + 5 <= i < c + 10 ==> IsDigit(s[i]))
  }

  /** The span's positions are in order and inside `s`. */
  predicate Fits(s: string, m: Span) {
    m.pos <= m.streetEnd && m.streetEnd + 2 <= m.cityEnd && m.cityEnd + 10 <= |s|
  }

  /** The pattern matches `s` with span `m`. */
  ghost predicate PatternAt(s: string, m: Span) {
    && Fits(s, m)
    && StreetAt(s, m.pos, m.streetEnd)
    && SepAt(s, m.streetEnd)
    && m.streetEnd + 2 < m.cityEnd && WordOrSpaceBetween(s, m.streetEnd + 2, m.cityEnd)
    && TailAt(s, m.cityEnd)
  }

  /** `match.group(1)` to `match.group(4)`. */
  function GroupsOf(s: string, m: Span): Groups
    requires Fits(s, m)
  {
    Groups(s[m.pos..m.streetEnd], s[m.streetEnd + 2..m.cityEnd],
           s[m.cityEnd + 2..m.cityEnd + 4], s[m.cityEnd + 5..m.cityEnd + 10])
  }

  // ================================================================ the matcher

  /** Number of consecutive digits of `s` from position `i` on: what a
      greedy `\d+` consumes. */
  function DigitRun(s: string, i: nat): (n: nat)
    requires i <= |s|
    ensures i + n <= |s|
    decreases |s| - i
  {
    if i < |s| && IsDigit(s[i]) then 1 + DigitRun(s, i + 1) else 0
  }

  /** Number of consecutive `[\w\s]` characters of `s` from position `i`
      on: what a greedy `[\w\s]+` consumes. */
  function WordRun(s: string, i: nat): (n: nat)
    requires i <= |s|
    ensures i + n <= |s|
    decreases |s| - i
  {
    if i < |s| && IsWordOrSpace(s[i]) then 1 + WordRun(s, i + 1) else 0
  }

  /** A greedy digit run covers digits and stops at a non-digit. */
  lemma {:induction false} DigitRunSpan(s: string, i: nat)
    requires i <= |s|
    ensures DigitsBetween(s, i, i + DigitRun(s, i))
    ensures i + DigitRun(s, i) < |s| ==> !IsDigit(s[i + DigitRun(s, i)])
    decreases |s| - i
  {
    if i < |s| && IsDigit(s[i]) {
      DigitRunSpan(s, i + 1);
    }
  }

  /** A greedy `[\w\s]` run covers class characters and stops outside the
      class. */
  lemma {:induction false} WordRunSpan(s: string, i: nat)
    requires i <= |s|
    ensures WordOrSpaceBetween(s, i, i + WordRun(s, i))
    ensures i + WordRun(s, i) < |s| ==> !IsWordOrSpace(s[i + WordRun(s, i)])
    decreases |s| - i
  {
    if i < |s| && IsWordOrSpace(s[i]) {
      WordRunSpan(s, i + 1);
    }
  }

  /** A stretch of digits followed by a non-digit is the greedy run. */
  lemma {:induction false} DigitRunExact(s: string, i: nat, n: nat)
    requires i + n <= |s| && DigitsBetween(s, i, i + n)
    requires i + n < |s| ==> !IsDigit(s[i + n])
    ensures DigitRun(s, i) == n
    decreases n
  {
    if n > 0 {
      DigitRunExact(s, i + 1, n - 1);
    }
  }

  /** A stretch of `[\w\s]` followed by a character outside the class is
      the greedy run. */
  lemma {:induction false} WordRunExact(s: string, i: nat, n: nat)
    requires i + n <= |s| && WordOrSpaceBetween(s, i, i + n)
    requires i + n < |s| ==> !IsWordOrSpace(s[i + n])
    ensures WordRun(s, i) == n
    decreases n
  {
    if n > 0 {
      WordRunExact(s, i + 1, n - 1);
    }
  }

  /** Where the street group `\d+\s[\w\s]+` starting at `p` ends, if it
      can start there: after the greedy digit run, one whitespace character
      and the greedy `[\w\s]` run. */
  function StreetEnd(s: string, p: nat): (r: Option<nat>)
    requires p <= |s|
    ensures r.Some? ==> p < r.value <= |s|
  {
    var d := DigitRun(s, p);
    if d == 0 || p + d >= |s| || !IsSpace(s[p + d]) then None
    else
      var w := WordRun(s, p + d + 1);
      if w == 0 then None else Some(p + d + 1 + w)
  }

  /** Where the city group `[\w\s]+` ends, when the street group ends at
      `c1`: after `,\s` and the greedy `[\w\s]` run. */
  function CityEnd(s: string, c1: nat): (r: Option<nat>)
    requires c1 <= |s|
    ensures r.Some? ==> SepAt(s, c1) && c1 + 2 < r.value <= |s|
  {
    if !SepAt(s, c1) then None
    else
      var w := WordRun(s, c1 + 2);
      if w == 0 then None else Some(c1 + 2 + w)
  }

  /** The one way the pattern can match at position `p`, if any. */
  function MatchAt(s: string, p: nat): (r: Option<Span>)
    requires p <= |s|
    ensures r.Some? ==> r.value.pos == p && Fits(s, r.value)
  {
    match StreetEnd(s, p)
    case None => None
    case Some(c1) =>
      match CityEnd(s, c1)
      case None => None
      case Some(c2) => if TailAt(s, c2) then Some(Span(p, c1, c2)) else None
  }

  /** The matcher's street group has the shape `\d+\s[\w\s]+`. */
  lemma StreetEndShape(s: string, p: nat)
    requires p <= |s| && StreetEnd(s, p).Some?
    ensures StreetAt(s, p, StreetEnd(s, p).value)
  {
    var d := DigitRun(s, p);
    DigitRunSpan(s, p);
    WordRunSpan(s, p + d + 1);
    assert p < p + d < StreetEnd(s, p).value - 1;
  }

  /** The matcher's city group is a non-empty `[\w\s]` run. */
  lemma CityEndShape(s: string, c1: nat)
    requires c1 <= |s| && CityEnd(s, c1).Some?
    ensures WordOrSpaceBetween(s, c1 + 2, CityEnd(s, c1).value)
  {
    WordRunSpan(s, c1 + 2);
  }

  /** What the matcher returns is a match of the pattern. */
  lemma MatchAtSound(s: string, p: nat)
    requires p <= |s| && MatchAt(s, p).Some?
    ensures PatternAt(s, MatchAt(s, p).value)
  {
    StreetEndShape(s, p);
    CityEndShape(s, StreetEnd(s, p).value);
  }

  /** A street group followed by a comma is exactly what the matcher takes
      as street. */
  lemma StreetRuns(s: string, p: nat, e: nat)
    requires e < |s| && StreetAt(s, p, e) && s[e] == ','
    ensures StreetEnd(s, p) == Some(e)
  {
    var k :| p < k < e - 1 && DigitsBetween(s, p, k) && IsSpace(s[k]) && WordOrSpaceBetween(s, k + 1, e);
    DigitRunExact(s, p, k - p);
    WordRunExact(s, k + 1, e - k - 1);
  }

  /** A city group followed by a comma is exactly what the matcher takes as
      city. */
  lemma CityRun(s: string, c1: nat, c2: nat)
    requires SepAt(s, c1) && c1 + 2 < c2 < |s|
    requires WordOrSpaceBetween(s, c1 + 2, c2) && s[c2] == ','
    ensures CityEnd(s, c1) == Some(c2)
  {
    WordRunExact(s, c1 + 2, c2 - c1 - 2);
  }

  /** Every match of the pattern is the one the matcher returns where it
      starts. */
  lemma MatchAtComplete(s: string, m: Span)
    requires PatternAt(s, m)
    ensures MatchAt(s, m.pos) == Some(m)
  {
    StreetRuns(s, m.pos, m.streetEnd);
    CityRun(s, m.streetEnd, m.cityEnd);
  }

  /** The pattern matches at a position in at most one way. */
  lemma MatchUnique(s: string, m: Span, n: Span)
    requires PatternAt(s, m) && PatternAt(s, n) && m.pos == n.pos
    ensures m == n
  {
    MatchAtComplete(s, m);
    MatchAtComplete(s, n);
  }

  /** Where the matcher fails, the pattern does not match. */
  lemma NoMatchNoPattern(s: string, m: Span)
    requires m.pos <= |s| && MatchAt(s, m.pos).None?
    ensures !PatternAt(s, m)
  {
    if PatternAt(s, m) {
      MatchAtComplete(s, m);
    }
  }

  // ================================================================ re.search

  /** The first match in a list of per-position match results, from
      position `q` on. */
  function FirstHit(ms: seq<Option<Span>>, q: nat): Option<Span>
    requires q <= |ms|
    decreases |ms| - q
  {
    if q == |ms| then None
    else
      match ms[q]
      case Some(m) => Some(m)
      case None => FirstHit(ms, q + 1)
  }

  /** `FirstHit` stops at the first position that holds a match. */
  lemma {:induction false} FirstHitFirst(ms: seq<Option<Span>>, q: nat)
    requires q <= |ms|
    ensures FirstHit(ms, q).Some? ==>
              exists j :: q <= j < |ms| && ms[j] == FirstHit(ms, q) && forall r :: q <= r < j ==> ms[r].None?
    ensures FirstHit(ms, q).None? ==> forall r :: q <= r < |ms| ==> ms[r].None?
    decreases |ms| - q
  {
    if q < |ms| && ms[q].None? {
      FirstHitFirst(ms, q + 1);
    }
  }

  /** What the matcher finds at each position where `re.search` tries the
      pattern: every position of `s`, and its end. */
  function Candidates(s: string): (ms: seq<Option<Span>>)
    ensures |ms| == |s| + 1
    ensures forall q :: 0 <= q <= |s| ==> ms[q] == MatchAt(s, q)
  {
    seq(|s| + 1, q requires 0 <= q <= |s| => MatchAt(s, q))
  }

  /** The search result in terms of the pattern: the leftmost match. */
  lemma SearchLeftmost(s: string)
    ensures var r := FirstHit(Candidates(s), 0);
            && (r.Some? ==> PatternAt(s, r.value) && forall n: Span :: n.pos < r.value.pos ==> !PatternAt(s, n))
            && (r.None? ==> forall n: Span :: !PatternAt(s, n))
  {
    var ms := Candidates(s);
    FirstHitFirst(ms, 0);
    match FirstHit(ms, 0)
    case Some(m) =>
      var j :| 0 <= j < |ms| && ms[j] == Some(m) && forall r :: 0 <= r < j ==> ms[r].None?;
      MatchAtSound(s, j);
      forall n: Span | n.pos < m.pos
        ensures !PatternAt(s, n)
      {
        NoMatchNoPattern(s, n);
      }
    case None =>
      forall n: Span
        ensures !PatternAt(s, n)
      {
        if n.pos <= |s| {
          NoMatchNoPattern(s, n);
        }
      }
  }

  /** `re.search(pattern, s)`: the leftmost match, or none when the pattern
      matches nowhere. */
  function Search(s: string): (r: Option<Span>)
    ensures r.Some? ==> PatternAt(s, r.value)
    ensures r.Some? ==> forall n: Span :: n.pos < r.value.pos ==> !PatternAt(s, n)
    ensures r.None? ==> forall n: Span :: !PatternAt(s, n)
  {
    SearchLeftmost(s);
    FirstHit(Candidates(s), 0)
  }

  /** `re.search` finds the leftmost match. */
  lemma SearchFinds(s: string, m: Span)
    requires PatternAt(s, m)
    requires forall n: Span :: n.pos < m.pos ==> !PatternAt(s, n)
    ensures Search(s) == Some(m)
  {
    var r := Search(s);
    assert r.Some?;
    assert r.value.pos == m.pos;
    MatchUnique(s, m, r.value);
  }

  /** A match starts at a digit. */
  lemma PatternStartsWithDigit(s: string, m: Span)
    requires PatternAt(s, m)
    ensures m.pos < |s| && IsDigit(s[m.pos])
  {
  }

  // ================================================================ the extractor

  /** `match.group(i).strip()` for the four groups. */
  function Stripped(g: Groups): Address {
    Address(Strip(g.street), Strip(g.city), Strip(g.state), Strip(g.zip))
  }

  /** A stripped street group: it starts with a street number whose first
      non-digit character, if any, is whitespace; it holds only `[\w\s]`
      characters, so no comma; and it does not end in whitespace. */
  predicate StreetWellFormed(t: string) {
    && |t| > 0 && IsDigit(t[0]) && !IsSpace(t[|t| - 1])
    && (forall i :: 0 < i < |t| && DigitsBetween(t, 0, i) && !IsDigit(t[i]) ==> IsSpace(t[i]))
    && AllWordOrSpace(t)
  }

  /** A stripped city group: only `[\w\s]` characters and nothing to strip;
      it may be empty. */
  predicate CityWellFormed(t: string) {
    && AllWordOrSpace(t)
    && (|t| > 0 ==> !IsSpace(t[0]) && !IsSpace(t[|t| - 1]))
  }

  /** What any address the extractor returns looks like. */
  predicate WellFormed(a: Address) {
    && |a.state| == 2 && IsUpper(a.state[0]) && IsUpper(a.state[1])
    && |a.zipcode| == 5 && AllDigits(a.zipcode)
    && StreetWellFormed(a.street)
    && CityWellFormed(a.city)
  }

  /** What each capture group of a match looks like. */
  ghost predicate GroupShapes(g: Groups) {
    && StreetAt(g.street, 0, |g.street|)
    && AllWordOrSpace(g.city)
    && |g.state| == 2 && IsUpper(g.state[0]) && IsUpper(g.state[1])
    && |g.zip| == 5 && AllDigits(g.zip)
  }

  /** The street group of a match, taken out of the text, keeps its shape. */
  lemma StreetGroupShape(s: string, p: nat, e: nat)
    requires p <= e <= |s| && StreetAt(s, p, e)
    ensures StreetAt(s[p..e], 0, e - p)
  {
    var t := s[p..e];
    var k :| p < k < e - 1 && DigitsBetween(s, p, k) && IsSpace(s[k]) && WordOrSpaceBetween(s, k + 1, e);
    forall i | 0 <= i < e - p
      ensures t[i] == s[p + i]
    {
    }
    assert DigitsBetween(t, 0, k - p) && IsSpace(t[k - p]) && WordOrSpaceBetween(t, k - p + 1, e - p);
  }

  lemma WordOrSpaceSlice(s: string, lo: nat, hi: nat)
    requires lo <= hi <= |s| && WordOrSpaceBetween(s, lo, hi)
    ensures AllWordOrSpace(s[lo..hi])
  {
    forall i | 0 <= i < hi - lo
      ensures IsWordOrSpace(s[lo..hi][i])
    {
      assert s[lo..hi][i] == s[lo + i];
    }
  }

  lemma DigitsSlice(s: string, lo: nat, hi: nat)
    requires lo <= hi <= |s| && DigitsBetween(s, lo, hi)
    ensures AllDigits(s[lo..hi])
  {
    forall i | 0 <= i < hi - lo
      ensures IsDigit(s[lo..hi][i])
    {
      assert s[lo..hi][i] == s[lo + i];
    }
  }

  /** The groups of a match have the shapes of their sub-patterns. */
  lemma PatternShapes(s: string, m: Span)
    requires PatternAt(s, m)
    ensures GroupShapes(GroupsOf(s, m))
  {
    StreetGroupShape(s, m.pos, m.streetEnd);
    WordOrSpaceSlice(s, m.streetEnd + 2, m.cityEnd);
    assert DigitsBetween(s, m.cityEnd + 5, m.cityEnd + 10);
    DigitsSlice(s, m.cityEnd + 5, m.cityEnd + 10);
  }

  lemma StreetStripped(g: string)
    requires StreetAt(g, 0, |g|)
    ensures StreetWellFormed(Strip(g))
  {
    var k :| 0 < k < |g| - 1 && DigitsBetween(g, 0, k) && IsSpace(g[k]) && WordOrSpaceBetween(g, k + 1, |g|);
    assert IsDigit(g[0]) && IsDigit(g[k - 1]);
    StripKeepsPrefix(g);
    var t := Strip(g);
    assert |t| >= k;
    forall i | 0 <= i < |t|
      ensures IsWordOrSpace(t[i]) && t[i] == g[i]
    {
      assert t[i] == g[i];
    }
    forall i | 0 < i < |t| && DigitsBetween(t, 0, i) && !IsDigit(t[i])
      ensures IsSpace(t[i])
    {
      assert i >= k;
      assert t[k] == g[k] && !IsDigit(t[k]);
      assert i == k;
    }
  }

  lemma CityStripped(g: string)
    requires AllWordOrSpace(g)
    ensures CityWellFormed(Strip(g))
  {
    var t := Strip(g);
    var lead := SkipSpace(g, 0);
    assert t == g[lead..lead + |t|];
    forall i | 0 <= i < |t|
      ensures IsWordOrSpace(t[i])
    {
      assert t[i] == g[lead + i];
    }
  }

  lemma StrippedWellFormed(g: Groups)
    requires GroupShapes(g)
    ensures WellFormed(Stripped(g))
  {
    StreetStripped(g.street);
    CityStripped(g.city);
    StripIdentity(g.state);
    assert !IsSpace(g.zip[0]) && !IsSpace(g.zip[4]);
    StripIdentity(g.zip);
  }

  /** `extract_address_from_description(description)`: a falsy description
      gives `(None, None, None, None)`, a non-string raises in `re.search`,
      and otherwise the leftmost match, stripped, or four `None`s. The
      four fields are found or missing together. */
  function ExtractAddress(description: Value): (r: Py<Option<Address>>)
    ensures !Truthy(description) ==> r == Ok(None)
    ensures Truthy(description) && !description.Str? ==> r == Raised
    ensures description.Str? ==> r.Ok?
    ensures r.Ok? && r.value.Some? ==> WellFormed(r.value.value)
  {
    if !Truthy(description) then Ok(None)
    else if !description.Str? then Raised
    else
      match Search(description.s)
      case None => Ok(None)
      case Some(m) =>
        PatternShapes(description.s, m);
        StrippedWellFormed(GroupsOf(description.s, m));
        Ok(Some(Stripped(GroupsOf(description.s, m))))
  }

  /** The extractor returns the stripped groups of the leftmost match. */
  lemma ExtractLeftmost(s: string, m: Span)
    requires PatternAt(s, m)
    requires forall n: Span :: n.pos < m.pos ==> !PatternAt(s, n)
    ensures ExtractAddress(Str(s)) == Ok(Some(Stripped(GroupsOf(s, m))))
  {
    SearchFinds(s, m);
    assert Truthy(Str(s));
  }

  /** The extractor finds nothing exactly when the pattern matches nowhere. */
  lemma ExtractNothing(s: string)
    ensures ExtractAddress(Str(s)) == Ok(None) <==> forall n: Span :: !PatternAt(s, n)
  {
  }

  /** An address written the usual way: `street, City, ST 12345`. */
  function Layout(g: Groups): string {
    g.street + ", " + g.city + ", " + g.state + " " + g.zip
  }

  /** The span of an address written the usual way at position `at`. */
  function LayoutSpan(at: nat, g: Groups): Span {
    var c1 := at + |g.street|;
    Span(at, c1, c1 + 2 + |g.city|)
  }

  /** `t` sits in `s` at position `p`, character by character. */
  predicate CopyAt(s: string, p: nat, t: string) {
    p + |t| <= |s| && forall i :: 0 <= i < |t| ==> s[p + i] == t[i]
  }

  /** A copy is the slice at its position. */
  lemma CopySlice(s: string, p: nat, t: string)
    requires CopyAt(s, p, t)
    ensures s[p..p + |t|] == t
  {
  }

  /** Both halves of a concatenation sit where they belong. */
  lemma CopyAppend(a: string, b: string)
    ensures CopyAt(a + b, 0, a) && CopyAt(a + b, |a|, b)
  {
  }

  /** A copy of a copy is a copy. */
  lemma CopyTrans(s: string, p: nat, t: string, q: nat, u: string)
    requires CopyAt(s, p, t) && CopyAt(t, q, u)
    ensures CopyAt(s, p + q, u)
  {
    forall i | 0 <= i < |u|
      ensures s[p + q + i] == u[i]
    {
      assert s[p + (q + i)] == t[q + i];
    }
  }

  /** A street group copied into a text keeps its shape there. */
  lemma StreetInText(s: string, p: nat, street: string)
    requires CopyAt(s, p, street) && StreetAt(street, 0, |street|)
    ensures StreetAt(s, p, p + |street|)
  {
    var k :| 0 < k < |street| - 1 && DigitsBetween(street, 0, k) && IsSpace(street[k])
              && WordOrSpaceBetween(street, k + 1, |street|);
    assert s[p + k] == street[k];
    assert DigitsBetween(s, p, p + k) by {
      forall i | p <= i < p + k
        ensures IsDigit(s[i])
      {
        assert s[p + (i - p)] == street[i - p];
      }
    }
    assert WordOrSpaceBetween(s, p + k + 1, p + |street|) by {
      forall i | p + k + 1 <= i < p + |street|
        ensures IsWordOrSpace(s[i])
      {
        assert s[p + (i - p)] == street[i - p];
      }
    }
  }

  /** A city group copied into a text keeps its shape there. */
  lemma CityInText(s: string, p: nat, city: string)
    requires CopyAt(s, p, city) && AllWordOrSpace(city)
    ensures WordOrSpaceBetween(s, p, p + |city|)
  {
    forall i | p <= i < p + |city|
      ensures IsWordOrSpace(s[i])
    {
      assert s[p + (i - p)] == city[i - p];
    }
  }

  /** `, ST 12345` copied into a text is the pattern's tail there. */
  lemma TailInText(s: string, c: nat, state: string, zip: string)
    requires |state| == 2 && IsUpper(state[0]) && IsUpper(state[1])
    requires |zip| == 5 && AllDigits(zip)
    requires CopyAt(s, c, ", ") && CopyAt(s, c + 2, state) && CopyAt(s, c + 4, " ") && CopyAt(s, c + 5, zip)
    ensures TailAt(s, c)
  {
    assert s[c] == ", "[0] && s[c + 1] == ", "[1] && s[c + 4] == " "[0];
    assert s[c + 2] == state[0] && s[c + 3] == state[1];
    forall i | c + 5 <= i < c + 10
      ensures IsDigit(s[i])
    {
      assert s[c + 5 + (i - c - 5)] == zip[i - c - 5];
    }
  }

  /** Where the pieces of `street, City, ST 12345` sit in it. */
  lemma LayoutCopies(g: Groups)
    ensures var l := Layout(g);
            var c := |g.street| + 2 + |g.city|;
            && CopyAt(l, 0, g.street)
            && CopyAt(l, |g.street|, ", ")
            && CopyAt(l, |g.street| + 2, g.city)
            && CopyAt(l, c, ", ")
            && CopyAt(l, c + 2, g.state)
            && CopyAt(l, c + 2 + |g.state|, " ")
            && CopyAt(l, c + 3 + |g.state|, g.zip)
  {
    var l2 := g.street + ", ";
    var l3 := l2 + g.city;
    var l4 := l3 + ", ";
    var l5 := l4 + g.state;
    var l6 := l5 + " ";
    var l := l6 + g.zip;
    CopyAppend(l6, g.zip);
    CopyAppend(l5, " ");
    CopyTrans(l, 0, l6, 0, l5);
    CopyTrans(l, 0, l6, |l5|, " ");
    CopyAppend(l4, g.state);
    CopyTrans(l, 0, l5, 0, l4);
    CopyTrans(l, 0, l5, |l4|, g.state);
    CopyAppend(l3, ", ");
    CopyTrans(l, 0, l4, 0, l3);
    CopyTrans(l, 0, l4, |l3|, ", ");
    CopyAppend(l2, g.city);
    CopyTrans(l, 0, l3, 0, l2);
    CopyTrans(l, 0, l3, |l2|, g.city);
    CopyAppend(g.street, ", ");
    CopyTrans(l, 0, l2, 0, g.street);
    CopyTrans(l, 0, l2, |g.street|, ", ");
  }

  /** Where the pieces of `street, City, ST 12345` sit in a text that
      holds it at `at`. */
  lemma PiecesAt(s: string, at: nat, g: Groups)
    requires CopyAt(s, at, Layout(g))
    ensures var c := at + |g.street| + 2 + |g.city|;
            && CopyAt(s, at, g.street)
            && CopyAt(s, at + |g.street|, ", ")
            && CopyAt(s, at + |g.street| + 2, g.city)
            && CopyAt(s, c, ", ")
            && CopyAt(s, c + 2, g.state)
            && CopyAt(s, c + 2 + |g.state|, " ")
            && CopyAt(s, c + 3 + |g.state|, g.zip)
  {
    var l := Layout(g);
    var c := |g.street| + 2 + |g.city|;
    LayoutCopies(g);
    CopyTrans(s, at, l, 0, g.street);
    CopyTrans(s, at, l, |g.street|, ", ");
    CopyTrans(s, at, l, |g.street| + 2, g.city);
    CopyTrans(s, at, l, c, ", ");
    CopyTrans(s, at, l, c + 2, g.state);
    CopyTrans(s, at, l, c + 2 + |g.state|, " ");
    CopyTrans(s, at, l, c + 3 + |g.state|, g.zip);
  }

  /** Where an address written the usual way sits in a text. */
  lemma LayoutAt(pre: string, g: Groups, post: string)
    ensures CopyAt(pre + Layout(g) + post, |pre|, Layout(g))
  {
    var l := Layout(g);
    CopyAppend(pre + l, post);
    CopyAppend(pre, l);
    CopyTrans(pre + l + post, 0, pre + l, |pre|, l);
  }

  /** Text holding the pieces of an address at the places of span `m`
      matches the pattern with that span. */
  lemma PiecesPattern(s: string, m: Span, g: Groups)
    requires GroupShapes(g) && |g.city| > 0
    requires m.streetEnd == m.pos + |g.street| && m.cityEnd == m.streetEnd + 2 + |g.city|
    requires CopyAt(s, m.pos, g.street) && CopyAt(s, m.streetEnd, ", ") && CopyAt(s, m.streetEnd + 2, g.city)
    requires CopyAt(s, m.cityEnd, ", ") && CopyAt(s, m.cityEnd + 2, g.state)
    requires CopyAt(s, m.cityEnd + 4, " ") && CopyAt(s, m.cityEnd + 5, g.zip)
    ensures PatternAt(s, m)
  {
    StreetInText(s, m.pos, g.street);
    assert s[m.streetEnd] == ", "[0] && s[m.streetEnd + 1] == ", "[1];
    CityInText(s, m.streetEnd + 2, g.city);
    TailInText(s, m.cityEnd, g.state, g.zip);
  }

  /** An address written the usual way matches the pattern where it
      starts. */
  lemma LayoutPattern(s: string, at: nat, g: Groups)
    requires CopyAt(s, at, Layout(g))
    requires GroupShapes(g) && |g.city| > 0
    ensures PatternAt(s, LayoutSpan(at, g))
  {
    PiecesAt(s, at, g);
    PiecesPattern(s, LayoutSpan(at, g), g);
  }

  /** The groups of that match are the address's own. */
  lemma LayoutGroups(s: string, at: nat, g: Groups)
    requires CopyAt(s, at, Layout(g))
    requires |g.state| == 2 && |g.zip| == 5
    ensures Fits(s, LayoutSpan(at, g)) && GroupsOf(s, LayoutSpan(at, g)) == g
  {
    var m := LayoutSpan(at, g);
    PiecesAt(s, at, g);
    CopySlice(s, m.pos, g.street);
    CopySlice(s, m.streetEnd + 2, g.city);
    CopySlice(s, m.cityEnd + 2, g.state);
    CopySlice(s, m.cityEnd + 5, g.zip);
  }

  /** A text with no digit before an address written the usual way yields
      that address, stripped. */
  lemma ExtractAt(s: string, at: nat, g: Groups)
    requires CopyAt(s, at, Layout(g))
    requires forall i :: 0 <= i < at ==> !IsDigit(s[i])
    requires GroupShapes(g) && |g.city| > 0
    ensures ExtractAddress(Str(s)) == Ok(Some(Stripped(g)))
  {
    var m := LayoutSpan(at, g);
    LayoutPattern(s, at, g);
    LayoutGroups(s, at, g);
    forall n: Span | n.pos < m.pos
      ensures !PatternAt(s, n)
    {
      if PatternAt(s, n) {
        PatternStartsWithDigit(s, n);
      }
    }
    ExtractLeftmost(s, m);
  }

  /** Text that contains no digit before an address written the usual way
      yields that address, stripped, whatever follows it. */
  lemma ExtractAfterText(pre: string, g: Groups, post: string)
    requires forall i :: 0 <= i < |pre| ==> !IsDigit(pre[i])
    requires GroupShapes(g) && |g.city| > 0
    ensures ExtractAddress(Str(pre + Layout(g) + post)) == Ok(Some(Stripped(g)))
  {
    var s := pre + Layout(g) + post;
    LayoutAt(pre, g, post);
    forall i | 0 <= i < |pre|
      ensures !IsDigit(s[i])
    {
      assert s[i] == pre[i];
    }
    ExtractAt(s, |pre|, g);
  }

  lemma ExampleShapes()
    ensures GroupShapes(Groups("123 Main St", "Springfield", "IL", "62701"))
  {
    var street := "123 Main St";
    assert DigitsBetween(street, 0, 3) && IsSpace(street[3]) && WordOrSpaceBetween(street, 4, |street|);
  }

  lemma ExampleStripped()
    ensures var g := Groups("123 Main St", "Springfield", "IL", "62701");
            Stripped(g) == Address(g.street, g.city, g.state, g.zip)
  {
    StripIdentity("123 Main St");
    StripIdentity("Springfield");
    StripIdentity("IL");
    StripIdentity("62701");
  }

  /** The documentation's example: "Nice home at 123 Main St, Springfield,
      IL 62701 near the lake". */
  lemma ExtractExample()
    ensures var g := Groups("123 Main St", "Springfield", "IL", "62701");
            ExtractAddress(Str("Nice home at " + Layout(g) + " near the lake"))
              == Ok(Some(Address("123 Main St", "Springfield", "IL", "62701")))
  {
    ExampleShapes();
    ExampleStripped();
    ExtractAfterText("Nice home at ", Groups("123 Main St", "Springfield", "IL", "62701"), " near the lake");
  }
}

=== FILE: client.dfy ===
/** The request side of `APIClient` (api_client.py): the headers its
    constructor builds, the URL `_make_request` forms, and the query
    parameters of the three lookups. Sending a request and decoding its reply
    are not part of this model: a lookup's reply is the decoded JSON, and a
    failed request is answered by `None`. */
module Client {
  import opened Wrappers
  import opened Values
  import opened Text

  const Json: string := "application/json"
  const DetailsEndpoint: string := "properties/details"
  const WeatherUrl: string := "https://api.openweathermap.org/data/2.5/weather"
  const PlacesUrl: string := "https://maps.googleapis.com/maps/api/place/nearbysearch/json"
  const DefaultRadius: int := 5000

  /** The constructor's arguments; a key that is not given is `None`. */
  datatype Settings = Settings(baseUrl: string, apiKey: Option<string>, rapidKey: Option<string>, rapidHost: Option<string>)

  /** The keys of the two third-party services, read from the configuration. */
  datatype Keys = Keys(weather: string, places: string)

  /** A query parameter: a string, an integer, a value passed through as
      it is, or the text `f"{lat},{lon}"`. */
  datatype Param =
    | Text(s: string)
    | Number(n: int)
    | Raw(v: Value)
    | Coordinates(lat: Value, lon: Value)

  /** An outgoing HTTP request. */
  datatype Request = Request(verb: string, url: string, headers: map<string, string>, params: map<string, Param>)

  /** The three lookups the client offers. */
  datatype Call =
    | PropertyDetails(zpid: string)
    | CurrentWeather(city: Value)
    | NearbyPlaces(lat: Value, lon: Value, radius: int, placeType: string)

  /** Python truthiness of an optional string. */
  predicate Given(k: Option<string>) {
    k.Some? && k.value != ""
  }

  // ================================================================ headers

  /** The only header names the client ever sets. */
  predicate KnownHeader(name: string) {
    name == "Content-Type" || name == "Accept" || name == "Authorization"
    || name == "x-rapidapi-key" || name == "x-rapidapi-host"
  }

  /** `self.headers` after `APIClient.__init__`: the two JSON headers always,
      a bearer token when an API key is given, and the RapidAPI pair only
      when both its key and its host are given. */
  function Headers(c: Settings): (h: map<string, string>)
    ensures "Content-Type" in h && h["Content-Type"] == Json
    ensures "Accept" in h && h["Accept"] == Json
    ensures "Authorization" in h <==> Given(c.apiKey)
    ensures "Authorization" in h ==> h["Authorization"] == "Bearer " + c.apiKey.value
    ensures "x-rapidapi-key" in h <==> Given(c.rapidKey) && Given(c.rapidHost)
    ensures "x-rapidapi-host" in h <==> Given(c.rapidKey) && Given(c.rapidHost)
    ensures "x-rapidapi-key" in h ==> h["x-rapidapi-key"] == c.rapidKey.value && h["x-rapidapi-host"] == c.rapidHost.value
    ensures forall name <- h :: KnownHeader(name)
  {
    var json := map["Content-Type" := Json, "Accept" := Json];
    var auth := if Given(c.apiKey) then json["Authorization" := "Bearer " + c.apiKey.value] else json;
    if Given(c.rapidKey) && Given(c.rapidHost) then
      auth["x-rapidapi-key" := c.rapidKey.value]["x-rapidapi-host" := c.rapidHost.value]
    else auth
  }

  /** With one of the RapidAPI values missing or empty, neither RapidAPI
      header is sent. */
  lemma RapidPairOrNothing(c: Settings)
    requires !Given(c.rapidKey) || !Given(c.rapidHost)
    ensures "x-rapidapi-key" !in Headers(c) && "x-rapidapi-host" !in Headers(c)
    ensures Headers(c) == Headers(c.(rapidKey := None, rapidHost := None))
  {
  }

  /** A client built without an API key sends no `Authorization` header:
      only the two JSON headers, and the RapidAPI pair when both of its
      values are given. */
  lemma NoKeyNoBearer(c: Settings)
    requires c.apiKey.None?
    ensures "Authorization" !in Headers(c)
    ensures |Headers(c)| == if Given(c.rapidKey) && Given(c.rapidHost) then 4 else 2
  {
    var h := Headers(c);
    if Given(c.rapidKey) && Given(c.rapidHost) {
      assert h.Keys == {"Content-Type", "Accept", "x-rapidapi-key", "x-rapidapi-host"};
    } else {
      assert h.Keys == {"Content-Type", "Accept"};
    }
  }

  // ================================================================ URLs and requests

  /** `f"{self.base_url}/{endpoint}"`. */
  function Url(base: string, endpoint: string): (u: string)
    ensures |u| == |base| + 1 + |endpoint|
    ensures u[..|base|] == base && u[|base|] == '/' && u[|base| + 1..] == endpoint
  {
    base + "/" + endpoint
  }

  /** Under one base URL, different endpoints give different URLs. */
  lemma UrlEndpoint(base: string, e1: string, e2: string)
    ensures Url(base, e1) == Url(base, e2) <==> e1 == e2
  {
    if Url(base, e1) == Url(base, e2) {
      assert e1 == Url(base, e1)[|base| + 1..];
    }
  }

  /** The request `_make_request` sends: the client's headers, to the
      endpoint under the base URL. */
  function MakeRequest(c: Settings, verb: string, endpoint: string, params: map<string, Param>): Request {
    Request(verb, Url(c.baseUrl, endpoint), Headers(c), params)
  }

  /** The request each lookup sends. The property lookup goes through
      `_make_request`; the weather and places lookups call `requests.get`
      directly, so they carry none of the client's headers. */
  function Send(c: Settings, keys: Keys, call: Call): (r: Request)
    ensures r.verb == "GET"
    ensures call.PropertyDetails? ==>
              && r.url == Url(c.baseUrl, DetailsEndpoint) && r.headers == Headers(c)
              && r.params == map["zpid" := Text(call.zpid)]
    ensures call.CurrentWeather? ==>
              && r.url == WeatherUrl && r.headers == map[]
              && r.params.Keys == {"q", "appid", "units"}
              && r.params["q"] == Raw(call.city) && r.params["appid"] == Text(keys.weather)
              && r.params["units"] == Text("metric")
    ensures call.NearbyPlaces? ==>
              && r.url == PlacesUrl && r.headers == map[]
              && r.params.Keys == {"location", "radius", "type", "key"}
              && r.params["location"] == Coordinates(call.lat, call.lon)
              && r.params["radius"] == Number(call.radius) && r.params["type"] == Text(call.placeType)
              && r.params["key"] == Text(keys.places)
  {
    match call
    case PropertyDetails(zpid) => MakeRequest(c, "GET", DetailsEndpoint, map["zpid" := Text(zpid)])
    case CurrentWeather(city) =>
      Request("GET", WeatherUrl, map[], map["q" := Raw(city), "appid" := Text(keys.weather), "units" := Text("metric")])
    case NearbyPlaces(lat, lon, radius, placeType) =>
      Request("GET", PlacesUrl, map[],
              map["location" := Coordinates(lat, lon), "radius" := Number(radius),
                  "type" := Text(placeType), "key" := Text(keys.places)])
  }

  /** Only the property lookup carries the client's credentials; the
      third-party services never see the RapidAPI key or the bearer token. */
  lemma CredentialsStayHome(c: Settings, keys: Keys, call: Call)
    ensures Send(c, keys, call).headers != map[] <==> call.PropertyDetails?
    ensures !call.PropertyDetails? ==> "x-rapidapi-key" !in Send(c, keys, call).headers
  {
    if call.PropertyDetails? {
      assert "Accept" in Send(c, keys, call).headers;
    }
  }

  // ================================================================ parameter text

  /** `str(n)` for an integer. */
  function ShowInt(i: int): (r: string)
    ensures |r| > 0 && ',' !in r
  {
    var digits := ShowNat(if i < 0 then -i else i);
    assert forall k :: 0 <= k < |digits| ==> digits[k] != ',';
    if i < 0 then "-" + digits else digits
  }

  /** `str(v)` as an f-string renders it, for the values whose rendering the
      model knows; a float's shortest round-trip text is not modelled. */
  function Show(v: Value): (r: Option<string>)
    ensures v.Str? ==> r == Some(v.s)
    ensures v.Real? || v.List? || v.Obj? ==> r.None?
  {
    match v
    case Null => Some("None")
    case Bool(b) => Some(if b then "True" else "False")
    case Int(i) => Some(ShowInt(i))
    case Str(s) => Some(s)
    case _ => None
  }

  /** The text of a `location` parameter, `f"{lat},{lon}"` (api_client.py
      line 63). `Send` keeps the parameter as `Coordinates(lat, lon)`; this
      function and `CoordinatesSplit` describe the text it stands for. */
  function CoordinatesText(lat: Value, lon: Value): (r: Option<string>)
    ensures r.Some? <==> Show(lat).Some? && Show(lon).Some?
  {
    match (Show(lat), Show(lon))
    case (Some(a), Some(b)) => Some(a + "," + b)
    case _ => None
  }

  /** When the latitude's text has no comma, the first comma of the
      `location` text separates the two coordinates again. */
  lemma CoordinatesSplit(lat: Value, lon: Value)
    requires Show(lat).Some? && Show(lon).Some? && ',' !in Show(lat).value
    ensures var t := CoordinatesText(lat, lon).value;
            var a := Show(lat).value;
            && |a| < |t| && t[|a|] == ','
            && (forall k :: 0 <= k < |a| ==> t[k] != ',')
            && t[..|a|] == a && t[|a| + 1..] == Show(lon).value
  {
    var a := Show(lat).value;
    var b := Show(lon).value;
    var t := a + "," + b;
    assert t[..|a|] == a;
    assert t[|a| + 1..] == b;
    forall k | 0 <= k < |a|
      ensures t[k] != ','
    {
      assert t[k] == a[k];
    }
  }
}

=== FILE: fields.dfy ===
/** The field helpers of the property handler (main.py): number coercion,
    the `formattedChip` fallback lookup and description wrapping. Each one
    substitutes the sentinel "No se encontró dato" for missing data. */
module Fields {
  import opened Wrappers
  import opened Values
  import opened Text

  /** The placeholder shown whenever a field cannot be determined. */
  const NotFound: string := "No se encontró dato"

  // ================================================================ format_number

  /** The result of `format_number`. `Same` is the argument returned unchanged;
      `Whole(n)` is `int(text)`; `Decimal(text)` is `float(text)`, kept as the
      text it was read from; `Missing` is the sentinel string. */
  datatype Number =
    | Same(v: Value)
    | Whole(n: nat)
    | Decimal(text: string)
    | Missing

  /** A Python `int`, `float` or `bool` (bool is a subclass of int). */
  predicate IsNumber(v: Value) {
    v.Bool? || v.Int? || v.Real?
  }

  predicate IsNonNegativeNumber(v: Value) {
    match v
    case Bool(_) => true
    case Int(i) => i >= 0
    case Real(x) => x >= 0.0
    case _ => false
  }

  /** The strings `format_number` accepts, described directly: only digits
      and dots, at most one dot, and at least one digit. */
  predicate DecimalShape(s: string) {
    && DigitsOrDots(s)
    && multiset(s)['.'] <= 1
    && |s| > multiset(s)['.']
  }

  /** `s.replace(c, '', 1)`: `s` without its first occurrence of `c`. */
  function DropFirst(s: string, c: char): (r: string)
    ensures |r| == if c in s then |s| - 1 else |s|
  {
    if |s| == 0 then ""
    else if s[0] == c then s[1..]
    else [s[0]] + DropFirst(s[1..], c)
  }

  /** The test of main.py: `value.replace('.', '', 1).isdigit()`. */
  predicate IsNumeral(s: string) {
    var t := DropFirst(s, '.');
    |t| > 0 && AllDigits(t)
  }

  predicate DigitsOrDots(s: string) {
    forall i :: 0 <= i < |s| ==> IsDigit(s[i]) || s[i] == '.'
  }

  lemma {:induction false} DropFirstDotDigits(s: string)
    ensures AllDigits(DropFirst(s, '.')) <==> DigitsOrDots(s) && multiset(s)['.'] <= 1
  {
    if |s| > 0 {
      var t := s[1..];
      assert s == [s[0]] + t;
      assert multiset(s)['.'] == multiset([s[0]])['.'] + multiset(t)['.'];
      DigitsOrDotsCons(s[0], t);
      DropFirstDotDigits(t);
      if s[0] == '.' {
        assert DropFirst(s, '.') == t;
        if DigitsOrDots(t) {
          OnlyDigits(t);
        } else {
          DigitsAreDigitsOrDots(t);
        }
      } else {
        assert multiset([s[0]])['.'] == 0;
        assert DropFirst(s, '.') == [s[0]] + DropFirst(t, '.');
        AllDigitsCons(s[0], DropFirst(t, '.'));
      }
    }
  }

  lemma DigitsOrDotsCons(c: char, t: string)
    ensures DigitsOrDots([c] + t) <==> (IsDigit(c) || c == '.') && DigitsOrDots(t)
  {
    var s := [c] + t;
    assert s[0] == c;
    assert forall i :: 0 <= i < |t| ==> s[i + 1] == t[i];
    assert forall i :: 1 <= i < |s| ==> s[i] == t[i - 1];
  }

  lemma AllDigitsCons(c: char, t: string)
    ensures AllDigits([c] + t) <==> IsDigit(c) && AllDigits(t)
  {
    var s := [c] + t;
    assert s[0] == c;
    assert forall i :: 0 <= i < |t| ==> s[i + 1] == t[i];
    assert forall i :: 1 <= i < |s| ==> s[i] == t[i - 1];
  }

  lemma DigitsAreDigitsOrDots(t: string)
    ensures AllDigits(t) ==> DigitsOrDots(t)
  {
  }

  /** Digits and dots without a dot are digits. */
  lemma OnlyDigits(t: string)
    requires DigitsOrDots(t)
    ensures AllDigits(t) <==> multiset(t)['.'] == 0
  {
    if AllDigits(t) {
      assert '.' !in t;
    } else {
      var i :| 0 <= i < |t| && !IsDigit(t[i]);
      assert t[i] in multiset(t);
    }
  }

  /** The code's test accepts exactly the decimal shapes. */
  lemma NumeralShape(s: string)
    ensures IsNumeral(s) <==> DecimalShape(s)
  {
    DropFirstDotDigits(s);
    assert '.' in s <==> multiset(s)['.'] > 0;
  }

  /** No accepted string carries a sign. */
  predicate NonNegative(n: Number) {
    match n
    case Same(v) => IsNonNegativeNumber(v)
    case Whole(_) => true
    case Decimal(t) => DecimalShape(t)
    case Missing => false
  }

  /** `format_number(value)`. */
  function FormatNumber(value: Value): (r: Number)
    ensures r.Same? <==> IsNonNegativeNumber(value)
    ensures r.Same? ==> r.v == value
    ensures value.Str? ==> (r != Missing <==> DecimalShape(value.s))
    ensures r.Decimal? <==> value.Str? && DecimalShape(value.s) && '.' in value.s
    ensures r.Decimal? ==> r.text == value.s
    ensures r.Whole? ==> value.Str? && |value.s| > 0 && AllDigits(value.s) && r.n == DigitsValue(value.s)
    ensures !IsNumber(value) && !value.Str? ==> r == Missing
    ensures r != Missing ==> NonNegative(r)
  {
    match value
    case Bool(_) => Same(value)
    case Int(i) => if i >= 0 then Same(value) else Missing
    case Real(x) => if x >= 0.0 then Same(value) else Missing
    case Str(s) =>
      NumeralShape(s);
      if !IsNumeral(s) then Missing
      else if '.' in s then Decimal(s)
      else
        assert DropFirst(s, '.') == s by { DropFirstAbsent(s, '.'); }
        Whole(DigitsValue(s))
    case _ => Missing
  }

  lemma {:induction false} DropFirstAbsent(s: string, c: char)
    requires c !in s
    ensures DropFirst(s, c) == s
  {
    if |s| > 0 {
      assert c !in s[1..];
      DropFirstAbsent(s[1..], c);
    }
  }

  /** `format_number(str(n)) == n`: the decimal text of a natural number is
      read back as that number. */
  lemma FormatNumberOfShown(n: nat)
    ensures FormatNumber(Str(ShowNat(n))) == Whole(n)
  {
    var s := ShowNat(n);
    assert '.' !in s by {
      assert forall i :: 0 <= i < |s| ==> s[i] != '.';
    }
    assert multiset(s)['.'] == 0;
    DigitsOfShowNat(n);
  }

  // ================================================================ get_formatted_chip_value

  /** `fact.get('elementType') == factType` for a dict entry. */
  predicate IsFact(fact: Value, factType: string) {
    fact.Obj? && Lookup(fact.members, "elementType", Null) == Str(factType)
  }

  /** Every entry before position `j` is a dict of another element type, so
      the scan passes over it. */
  predicate Skipped(facts: seq<Value>, j: int, factType: string)
    requires 0 <= j <= |facts|
  {
    forall k :: 0 <= k < j ==> facts[k].Obj? && !IsFact(facts[k], factType)
  }

  /** `fact.get('value', {}).get('fullValue', NotFound)` for a dict entry. */
  function FullValue(fact: Value): (r: Py<Value>)
    requires fact.Obj?
    ensures r.Raised? <==> !Lookup(fact.members, "value", Obj([])).Obj?
    ensures (forall m <- fact.members :: m.key != "value") ==> r == Ok(Str(NotFound))
    ensures var v := Lookup(fact.members, "value", Obj([]));
            v.Obj? && (forall m <- v.members :: m.key != "fullValue") ==> r == Ok(Str(NotFound))
    ensures var v := Lookup(fact.members, "value", Obj([]));
            v.Obj? && r.Ok? && r.value != Str(NotFound) ==>
              exists j :: 0 <= j < |v.members| && v.members[j].key == "fullValue" && v.members[j].val == r.value
    ensures var v := Lookup(fact.members, "value", Obj([]));
            v.Obj? ==>
              forall j ::
                (0 <= j < |v.members| && v.members[j].key == "fullValue" && forall k :: 0 <= k < j ==> v.members[k].key != "fullValue")
                ==> r == Ok(v.members[j].val)
  {
    Get(Lookup(fact.members, "value", Obj([])), "fullValue", Str(NotFound))
  }

  /** The loop of `get_formatted_chip_value` over the entries of `quickFacts`:
      the first entry of the requested type decides, later entries are never
      looked at, and an entry that is not a dict raises when it is reached. */
  function FirstFact(facts: seq<Value>, factType: string): (r: Py<Value>)
    ensures Skipped(facts, |facts|, factType) ==> r == Ok(Str(NotFound))
    ensures forall j :: 0 <= j < |facts| && Skipped(facts, j, factType) ==>
              (IsFact(facts[j], factType) ==> r == FullValue(facts[j])) &&
              (!facts[j].Obj? ==> r == Raised)
  {
    if |facts| == 0 then Ok(Str(NotFound))
    else
      var elementType :- Get(facts[0], "elementType", Null);
      if elementType == Str(factType) then
        Get(Lookup(facts[0].members, "value", Obj([])), "fullValue", Str(NotFound))
      else
        var r := FirstFact(facts[1..], factType);
        assert forall j :: 1 <= j <= |facts| && Skipped(facts, j, factType) ==> Skipped(facts[1..], j - 1, factType);
        r
  }

  /** The first entry of the requested type decides even when its `value`
      has no `fullValue`: the placeholder is returned, whatever later
      entries hold. */
  lemma FirstMatchWithoutFullValue(facts: seq<Value>, factType: string, j: nat)
    requires j < |facts| && Skipped(facts, j, factType) && IsFact(facts[j], factType)
    requires var v := Lookup(facts[j].members, "value", Obj([]));
             v.Obj? && forall m <- v.members :: m.key != "fullValue"
    ensures FirstFact(facts, factType) == Ok(Str(NotFound))
  {
    assert FirstFact(facts, factType) == FullValue(facts[j]);
  }

  /** `get_formatted_chip_value(chip_data, fact_type)`. */
  function ChipValue(chip: Value, factType: string): (r: Py<Value>)
    ensures !chip.Obj? ==> r == Raised
    ensures chip.Obj? && (forall m <- chip.members :: m.key != "quickFacts") ==> r == Ok(Str(NotFound))
    ensures chip.Obj? && Lookup(chip.members, "quickFacts", List([])).List? ==>
              r == FirstFact(Lookup(chip.members, "quickFacts", List([])).items, factType)
    ensures chip.Obj? ==>
              var q := Lookup(chip.members, "quickFacts", List([]));
              (q.List? || q.Str? || q.Obj?) && !Truthy(q) ==> r == Ok(Str(NotFound))
    ensures chip.Obj? ==>
              var q := Lookup(chip.members, "quickFacts", List([]));
              !(q.List? || q.Str? || q.Obj?) ==> r == Raised
    ensures chip.Obj? ==>
              var q := Lookup(chip.members, "quickFacts", List([]));
              (q.Str? || q.Obj?) && Truthy(q) ==> r == Raised
  {
    var quickFacts :- Get(chip, "quickFacts", List([]));
    var facts :- Iter(quickFacts);
    FirstFact(facts, factType)
  }

  // ================================================================ format_description

  /** Words laid out ten to a line: each line joins its words by single
      spaces, and every complete line of ten ends with a line break. */
  function Wrap(ws: seq<string>): string
    decreases |ws|
  {
    if |ws| < 10 then Join(ws, " ")
    else Join(ws[..10], " ") + "\n" + Wrap(ws[10..])
  }

  /** `format_description(description)`. */
  function Describe(description: Value): (r: Py<string>)
    ensures !Truthy(description) ==> r == Ok(NotFound)
    ensures Truthy(description) && !description.Str? ==> r == Raised
    ensures Truthy(description) && description.Str? ==>
              r.Ok? && Words(r.value) == Words(description.s)
    ensures (Truthy(description) && description.Str? &&
             forall i :: 0 <= i < |description.s| ==> IsSpace(description.s[i])) ==> r == Ok("")
  {
    if !Truthy(description) then Ok(NotFound)
    else if !description.Str? then Raised
    else
      var ws := Words(description.s);
      WrapWords(ws);
      WordsOfBlankDescription(description.s);
      Ok(Wrap(ws))
  }

  lemma WordsOfBlankDescription(s: string)
    ensures (forall i :: 0 <= i < |s| ==> IsSpace(s[i])) ==> Wrap(Words(s)) == ""
  {
    if forall i :: 0 <= i < |s| ==> IsSpace(s[i]) {
      WordsOfBlank(s);
    }
  }

  /** `line` of main.py after some words were appended: each word followed by
      one space. */
  function Spaced(ws: seq<string>): string {
    if |ws| == 0 then "" else Spaced(ws[..|ws| - 1]) + ws[|ws| - 1] + " "
  }

  /** The loop of `format_description`, statement by statement. */
  method FormatDescription(description: Value) returns (r: Py<string>)
    ensures r == Describe(description)
  {
    if !Truthy(description) {
      return Ok(NotFound);
    }
    if !description.Str? {
      return Raised;
    }
    var words := Words(description.s);
    var formatted := "";
    var line := "";
    ghost var start := 0;
    var i := 1;
    while i <= |words|
      invariant 1 <= i <= |words| + 1
      invariant start % 10 == 0 && start <= i - 1 < start + 10
      invariant formatted == Wrap(words[..start])
      invariant line == Spaced(words[start..i - 1])
    {
      SpacedStep(words, start, i);
      line := line + words[i - 1] + " ";
      TenthWord(start, i);
      if i % 10 == 0 {
        FlushLine(words[..start], words[start..i]);
        assert words[..start] + words[start..i] == words[..i];
        formatted := formatted + Strip(line) + "\n";
        line := "";
        start := i;
      }
      i := i + 1;
    }
    FlushLine(words[..start], words[start..i - 1]);
    assert words[..start] + words[start..i - 1] == words;
    formatted := formatted + Strip(line);
    return Ok(formatted);
  }

  lemma TenthWord(start: int, i: int)
    requires start % 10 == 0 && start < i <= start + 10
    ensures i % 10 == 0 <==> i == start + 10
  {
  }

  lemma SpacedStep(words: seq<string>, start: int, i: int)
    requires 0 <= start < i <= |words|
    ensures Spaced(words[start..i]) == Spaced(words[start..i - 1]) + words[i - 1] + " "
  {
    assert words[start..i][..i - start - 1] == words[start..i - 1];
  }

  /** Flushing a line extends the wrapped text: after a multiple of ten
      words, the stripped line of the next words is their wrapping. */
  lemma FlushLine(head: seq<string>, line: seq<string>)
    requires forall w <- line :: IsWord(w)
    requires |head| % 10 == 0 && |line| <= 10
    ensures |line| < 10 ==> Wrap(head) + Strip(Spaced(line)) == Wrap(head + line)
    ensures |line| == 10 ==> Wrap(head) + Strip(Spaced(line)) + "\n" == Wrap(head + line)
  {
    StripSpaced(line);
    WrapAppend(head, line);
    assert line[..|line|] == line && line[|line|..] == [];
  }

  lemma {:induction false} JoinSnoc(ws: seq<string>, w: string)
    requires |ws| > 0
    ensures Join(ws + [w], " ") == Join(ws, " ") + " " + w
  {
    if |ws| > 1 {
      assert (ws + [w])[1..] == ws[1..] + [w];
      JoinSnoc(ws[1..], w);
    }
  }

  /** Stripping a line of space-terminated words leaves the words joined by
      single spaces. */
  lemma {:induction false} StripSpaced(ws: seq<string>)
    requires forall w <- ws :: IsWord(w)
    ensures Strip(Spaced(ws)) == Join(ws, " ")
  {
    if |ws| > 0 {
      var init := ws[..|ws| - 1];
      assert Spaced(ws) == Join(ws, " ") + " " by {
        if |init| > 0 {
          assert Spaced(init) == Join(init, " ") + " " by { StripSpacedShape(init); }
          JoinSnoc(init, ws[|ws| - 1]);
          assert init + [ws[|ws| - 1]] == ws;
        }
      }
      JoinShape(ws);
      StripTrailingSpace(Join(ws, " "));
    }
  }

  lemma {:induction false} StripSpacedShape(ws: seq<string>)
    requires |ws| > 0
    ensures Spaced(ws) == Join(ws, " ") + " "
  {
    var init := ws[..|ws| - 1];
    if |init| > 0 {
      StripSpacedShape(init);
      JoinSnoc(init, ws[|ws| - 1]);
      assert init + [ws[|ws| - 1]] == ws;
    }
  }

  /** Wrapping a multiple of ten words and then more words is wrapping each
      part. */
  lemma {:induction false} WrapAppend(a: seq<string>, b: seq<string>)
    requires |a| % 10 == 0
    ensures Wrap(a + b) == Wrap(a) + Wrap(b)
    decreases |a|
  {
    if |a| > 0 {
      assert (a + b)[..10] == a[..10];
      assert (a + b)[10..] == a[10..] + b;
      WrapAppend(a[10..], b);
    } else {
      assert a + b == b;
    }
  }

  /** Splitting the wrapped text on whitespace gives back exactly the words,
      in order. */
  lemma {:induction false} WrapWords(ws: seq<string>)
    requires forall w <- ws :: IsWord(w)
    ensures Words(Wrap(ws)) == ws
    decreases |ws|
  {
    if |ws| < 10 {
      WordsOfJoin(ws);
    } else {
      WrapWords(ws[10..]);
      WordsOfJoin(ws[..10]);
      WordsSplitAt(Join(ws[..10], " "), '\n', Wrap(ws[10..]));
      assert ws[..10] + ws[10..] == ws;
    }
  }

  /** The wrapped text holds one line break per complete group of ten. */
  lemma {:induction false} WrapBreaks(ws: seq<string>)
    requires forall w <- ws :: IsWord(w)
    ensures multiset(Wrap(ws))['\n'] == |ws| / 10
    decreases |ws|
  {
    if |ws| < 10 {
      JoinShape(ws);
    } else {
      WrapBreaks(ws[10..]);
      JoinShape(ws[..10]);
    }
  }

  /** Words `10i .. 10i + 9` of `ws`, or as many of them as there are. */
  function Chunk(ws: seq<string>, i: nat): (r: seq<string>)
    requires i <= |ws| / 10
    ensures |r| <= 10
  {
    ws[10 * i .. if 10 * i + 10 <= |ws| then 10 * i + 10 else |ws|]
  }

  /** Dropping the first ten words shifts the chunks by one. */
  lemma ChunkShift(ws: seq<string>, i: nat)
    requires |ws| >= 10 && 1 <= i <= |ws| / 10
    ensures Chunk(ws[10..], i - 1) == Chunk(ws, i)
  {
  }

  /** Line `i` of the wrapped text holds chunk `i` of the words, joined by
      single spaces, and there is one more line than complete chunks. */
  lemma {:induction false} WrapLines(ws: seq<string>)
    requires forall w <- ws :: IsWord(w)
    ensures |Lines(Wrap(ws))| == |ws| / 10 + 1
    ensures forall i :: 0 <= i <= |ws| / 10 ==> Lines(Wrap(ws))[i] == Join(Chunk(ws, i), " ")
    decreases |ws|
  {
    var ls := Lines(Wrap(ws));
    if |ws| < 10 {
      JoinShape(ws);
      LinesOfLine(Join(ws, " "));
      assert Chunk(ws, 0) == ws;
    } else {
      var rest := ws[10..];
      WrapLines(rest);
      JoinShape(ws[..10]);
      LinesOfLine(Join(ws[..10], " "));
      LinesSplitAt(Join(ws[..10], " "), Wrap(rest));
      assert ls == [Join(ws[..10], " ")] + Lines(Wrap(rest));
      forall i | 1 <= i <= |ws| / 10
        ensures ls[i] == Join(Chunk(ws, i), " ")
      {
        assert ls[i] == Lines(Wrap(rest))[i - 1];
        ChunkShift(ws, i);
      }
      assert Chunk(ws, 0) == ws[..10];
    }
  }

  /** No line of the wrapped text holds more than ten words. */
  lemma LineWords(ws: seq<string>)
    requires forall w <- ws :: IsWord(w)
    ensures forall line <- Lines(Wrap(ws)) :: |Words(line)| <= 10
  {
    var ls := Lines(Wrap(ws));
    WrapLines(ws);
    forall line | line in ls
      ensures |Words(line)| <= 10
    {
      var i :| 0 <= i < |ls| && ls[i] == line;
      var c := Chunk(ws, i);
      assert forall w <- c :: IsWord(w);
      WordsOfJoin(c);
    }
  }

  /** The wrapped text ends with a line break exactly when the words fill a
      positive number of complete lines. */
  lemma {:induction false} WrapTrailingBreak(ws: seq<string>)
    requires forall w <- ws :: IsWord(w)
    ensures var t := Wrap(ws); (|t| > 0 && t[|t| - 1] == '\n') <==> |ws| > 0 && |ws| % 10 == 0
    ensures |ws| > 0 ==> |Wrap(ws)| > 0
    decreases |ws|
  {
    if |ws| < 10 {
      JoinShape(ws);
    } else {
      var rest := ws[10..];
      WrapTrailingBreak(rest);
      var t := Wrap(ws);
      var tr := Wrap(rest);
      assert t == Join(ws[..10], " ") + "\n" + tr;
      if |rest| > 0 {
        assert t[|t| - 1] == tr[|tr| - 1];
      }
    }
  }
}

=== FILE: handler.dfy ===
/** The route handler `get_property_details` and its `print_property_details`
    (main.py), with the printing taken out: what it decides, which lookups it
    asks the client for and in what order, and what it returns. The client is
    abstract: its replies are given as `Upstream`, and every lookup the
    handler makes is recorded in the outcome's call trace. */
module Handler {
  import opened Wrappers
  import opened Values
  import opened Fields
  import opened Client
  import Address

  /** The body returned when the property lookup fails. */
  const FailureMessage: string := "No se pudieron obtener los detalles de la propiedad"

  /** How many place names each category keeps. */
  const NamesShown: nat := 3

  /** The decoded replies of the upstream services, one per lookup the
      handler can make. A request that fails is answered by `Null`, as
      the client returns `None` then. */
  datatype Upstream = Upstream(details: Value, weather: Value, schools: Value, hospitals: Value, stores: Value)

  /** The four address fields the handler settles on. */
  datatype AddressFields = AddressFields(street: Value, city: Value, state: Value, zipcode: Value)

  /** A field with a chip fallback: the coerced primary value, or what the
      `formattedChip` lookup gave. */
  datatype Shown = Formatted(n: Number) | FromChip(v: Value)

  /** Everything `print_property_details` works out before it calls out for
      the weather: the address and its zip code warning, the price and
      Zestimate, the wrapped description, bathrooms, bedrooms and area, the
      home type, year built and lot size, and the heating, cooling and
      flooring lists. */
  datatype Facts = Facts(
    address: AddressFields, zipWarning: bool,
    amounts: seq<Number>, description: string, rooms: seq<Shown>,
    extras: seq<Value>, lists: seq<string>)

  /** The weather line: its description and temperature. */
  datatype Forecast = Forecast(description: Value, temperature: Value)

  /** The place names shown per category; `None` when the category's heading
      is not printed. */
  datatype Nearby = Nearby(schools: Option<seq<Value>>, hospitals: Option<seq<Value>>, stores: Option<seq<Value>>)

  /** What the handler shows once the lookup succeeded with data: the facts,
      the weather when the city is known and the service answered, and the
      nearby places when the coordinates are known. */
  datatype Report = Report(facts: Facts, forecast: Option<Forecast>, nearby: Option<Nearby>)

  /** What one run of the handler amounts to: its result (a raised exception
      or the returned value), the lookups it made, in order, the facts when
      it got that far, and its report when it ran to the end with data. */
  datatype Outcome = Outcome(result: Py<Value>, calls: seq<Call>, facts: Option<Facts>, report: Option<Report>)

  /** Lookups made by a stage of the handler, with the stage's result. */
  datatype Step<T> = Step(calls: seq<Call>, result: Py<T>)

  /** `{"message": FailureMessage}`. */
  function FailureBody(): Value {
    Obj([Member("message", Str(FailureMessage))])
  }

  // ================================================================ address

  /** `all([street_address, city, state, zipcode])`. */
  predicate Complete(a: AddressFields) {
    Truthy(a.street) && Truthy(a.city) && Truthy(a.state) && Truthy(a.zipcode)
  }

  /** The extractor's four results as Python values. */
  function Extracted(found: Option<Address.Address>): (a: AddressFields)
    ensures found.None? ==> a == AddressFields(Null, Null, Null, Null)
    ensures found.Some? ==> a.street.Str? && a.city.Str? && a.state.Str? && a.zipcode.Str?
  {
    match found
    case None => AddressFields(Null, Null, Null, Null)
    case Some(x) => AddressFields(Str(x.street), Str(x.city), Str(x.state), Str(x.zipcode))
  }

  /** The address fields stored under `data['address']`. */
  function Stored(data: Value): (r: Py<AddressFields>)
    ensures r.Ok? <==> data.Obj? && Lookup(data.members, "address", Obj([])).Obj?
  {
    var address :- Get(data, "address", Obj([]));
    var street :- Get(address, "streetAddress", Null);
    Ok(AddressFields(street, Lookup(address.members, "city", Null), Lookup(address.members, "state", Null),
                     Lookup(address.members, "zipcode", Null)))
  }

  /** `print_property_details`, main.py lines 70-79: the stored address when all four fields are truthy, and
      otherwise all four taken from the description, even when the
      extractor finds nothing. */
  function ResolveAddress(data: Value): (r: Py<AddressFields>)
    ensures Stored(data).Raised? ==> r.Raised?
    ensures Stored(data).Ok? && Complete(Stored(data).value) ==> r == Stored(data)
    ensures Stored(data).Ok? && !Complete(Stored(data).value) ==>
              var description := Lookup(data.members, "description", Str(""));
              match Address.ExtractAddress(description)
              case Raised => r.Raised?
              case Ok(found) => r == Ok(Extracted(found))
    ensures r.Ok? && r.value.zipcode == Str(NotFound) ==> Stored(data).Ok? && Complete(Stored(data).value)
  {
    var stored :- Stored(data);
    if Complete(stored) then Ok(stored)
    else
      var found :- Address.ExtractAddress(Lookup(data.members, "description", Str("")));
      Ok(Extracted(found))
  }

  /** The address is all or nothing: the stored fields when they are all
      truthy, otherwise four strings from one match of the description, or
      four `None`s. Never a mix of stored and extracted fields. */
  lemma AddressAllOrNothing(data: Value)
    requires ResolveAddress(data).Ok?
    ensures var a := ResolveAddress(data).value;
            || (Complete(a) && a == Stored(data).value)
            || a == AddressFields(Null, Null, Null, Null)
            || exists x: Address.Address :: Address.WellFormed(x) && a == Extracted(Some(x))
  {
    var stored := Stored(data).value;
    if !Complete(stored) {
      var description := Lookup(data.members, "description", Str(""));
      var found := Address.ExtractAddress(description).value;
      if found.Some? {
        assert Address.WellFormed(found.value);
        assert ResolveAddress(data).value == Extracted(Some(found.value));
      }
    }
  }

  // ================================================================ the other fields

  /** `f"{value:,}"`: the thousands format of a number; the placeholder
      string has no such format and raises `ValueError`. */
  function Priced(n: Number): Py<Number> {
    if n == Missing then Raised else Ok(n)
  }

  /** `print_property_details`, main.py lines 104-117: a primary field coerced by `format_number`, falling back
      to the chip lookup only when the coercion gives the placeholder. */
  function WithChip(primary: Value, chip: Value, factType: string): (r: Py<Shown>)
    ensures IsNonNegativeNumber(primary) || (primary.Str? && DecimalShape(primary.s)) ==>
              r == Ok(Formatted(FormatNumber(primary)))
    ensures !IsNonNegativeNumber(primary) && !(primary.Str? && DecimalShape(primary.s)) ==>
              match ChipValue(chip, factType)
              case Raised => r.Raised?
              case Ok(v) => r == Ok(FromChip(v))
  {
    var n := FormatNumber(primary);
    if n != Missing then Ok(Formatted(n))
    else
      var v :- ChipValue(chip, factType);
      Ok(FromChip(v))
  }

  /** `', '.join(v)`: `v` is iterated, and every item must be a string. */
  function JoinItems(v: Value): (r: Py<string>)
    ensures r.Ok? <==> Iter(v).Ok? && forall x <- Iter(v).value :: x.Str?
    ensures v == List([Str(NotFound)]) ==> r == Ok(NotFound)
    ensures v.List? && r.Ok? && |v.items| == 1 ==> r.value == v.items[0].s
    ensures v == List([]) ==> r == Ok("")
  {
    var xs :- Iter(v);
    if forall x <- xs :: x.Str? then
      Ok(Text.Join(seq(|xs|, i requires 0 <= i < |xs| => xs[i].s), ", "))
    else Raised
  }

  /** Joining a string joins its characters. */
  lemma JoinItemsOfString(s: string)
    ensures JoinItems(Str(s)).Ok?
    ensures JoinItems(Str(s)) == JoinItems(List(Chars(s)))
  {
  }

  /** Joining a dict joins its keys. */
  lemma JoinItemsOfDict(ms: seq<Member>)
    ensures JoinItems(Obj(ms)).Ok?
    ensures JoinItems(Obj(ms)) == JoinItems(List(MemberKeys(ms)))
  {
  }

  /** A list of two or more strings joins to its first string, a comma and a
      space, and the join of the rest. */
  lemma JoinItemsCons(a: string, rest: seq<Value>)
    requires |rest| > 0 && forall x <- rest :: x.Str?
    ensures JoinItems(List(rest)).Ok?
    ensures JoinItems(List([Str(a)] + rest)) == Ok(a + ", " + JoinItems(List(rest)).value)
  {
    var xs := [Str(a)] + rest;
    var texts := seq(|xs|, i requires 0 <= i < |xs| => xs[i].s);
    var restTexts := seq(|rest|, i requires 0 <= i < |rest| => rest[i].s);
    assert texts[1..] == restTexts;
  }

  /** The amounts printed with a thousands separator (`print_property_details`, main.py lines 91-94). */
  const AmountKeys: seq<string> := ["price", "zestimate"]

  /** The fields with a chip fallback (`print_property_details`, main.py
      lines 104-117): the key of the
      primary value and the fact type of the chip entry. */
  const ChipFields: seq<(string, string)> := [("bathrooms", "baths"), ("bedrooms", "beds"), ("livingAreaValue", "livingArea")]

  /** The `resoFacts` lists joined by commas (`print_property_details`,
      main.py lines 125-127). */
  const ListKeys: seq<string> := ["heating", "cooling", "flooring"]

  /** `format_number` of each amount, formatted in turn. */
  function Amounts(data: Value, keys: seq<string>): (r: Py<seq<Number>>)
    requires data.Obj?
    ensures r.Ok? ==> |r.value| == |keys| && forall i :: 0 <= i < |keys| ==> r.value[i] == FormatNumber(Lookup(data.members, keys[i], Null))
    ensures r.Ok? ==> forall i :: 0 <= i < |keys| ==> r.value[i] != Missing
  {
    if |keys| == 0 then Ok([])
    else
      var first :- Priced(FormatNumber(Lookup(data.members, keys[0], Null)));
      var rest :- Amounts(data, keys[1..]);
      Ok([first] + rest)
  }

  /** The amounts raise exactly when one of them coerces to the
      placeholder. */
  lemma {:induction false} AmountsRaise(data: Value, keys: seq<string>)
    requires data.Obj?
    ensures Amounts(data, keys).Raised? <==>
              exists i :: 0 <= i < |keys| && FormatNumber(Lookup(data.members, keys[i], Null)) == Missing
  {
    if |keys| > 0 {
      AmountsRaise(data, keys[1..]);
      assert forall i :: 1 <= i < |keys| ==> keys[1..][i - 1] == keys[i];
    }
  }

  /** Each field with a chip fallback, in turn. */
  function Rooms(data: Value, chip: Value, fields: seq<(string, string)>): (r: Py<seq<Shown>>)
    requires data.Obj?
    ensures r.Ok? ==> |r.value| == |fields|
    ensures r.Ok? ==> forall i :: 0 <= i < |fields| ==>
              (r.value[i].FromChip? <==> FormatNumber(Lookup(data.members, fields[i].0, Null)) == Missing)
    ensures r.Ok? ==> forall i :: 0 <= i < |fields| && r.value[i].Formatted? ==>
              r.value[i].n == FormatNumber(Lookup(data.members, fields[i].0, Null))
    ensures r.Ok? ==> forall i :: 0 <= i < |fields| && r.value[i].FromChip? ==>
              ChipValue(chip, fields[i].1) == Ok(r.value[i].v)
    ensures r.Ok? <==> forall i :: 0 <= i < |fields| ==>
              FormatNumber(Lookup(data.members, fields[i].0, Null)) == Missing ==> ChipValue(chip, fields[i].1).Ok?
  {
    if |fields| == 0 then Ok([])
    else
      var first :- WithChip(Lookup(data.members, fields[0].0, Null), chip, fields[0].1);
      var rest :- Rooms(data, chip, fields[1..]);
      Ok([first] + rest)
  }

  /** Each `resoFacts` list joined by commas, in turn; a missing list shows
      the placeholder. */
  function Lists(reso: Value, keys: seq<string>): (r: Py<seq<string>>)
    requires reso.Obj?
    ensures r.Ok? ==> |r.value| == |keys|
    ensures r.Ok? ==> forall i :: 0 <= i < |keys| && (forall m <- reso.members :: m.key != keys[i]) ==> r.value[i] == NotFound
    ensures r.Ok? ==> forall i :: 0 <= i < |keys| ==>
              JoinItems(Lookup(reso.members, keys[i], List([Str(NotFound)]))) == Ok(r.value[i])
  {
    if |keys| == 0 then Ok([])
    else
      var first :- JoinItems(Lookup(reso.members, keys[0], List([Str(NotFound)])));
      var rest :- Lists(reso, keys[1..]);
      Ok([first] + rest)
  }

  /** The lists raise exactly when one of them cannot be joined. */
  lemma {:induction false} ListsRaise(reso: Value, keys: seq<string>)
    requires reso.Obj?
    ensures Lists(reso, keys).Raised? <==>
              exists i :: 0 <= i < |keys| && JoinItems(Lookup(reso.members, keys[i], List([Str(NotFound)]))).Raised?
  {
    if |keys| > 0 {
      ListsRaise(reso, keys[1..]);
      assert forall i :: 1 <= i < |keys| ==> keys[1..][i - 1] == keys[i];
    }
  }

  /** The facts of lines 70-98 of `print_property_details` (main.py): the
      address, the price and Zestimate, and the wrapped description. */
  datatype Front = Front(address: AddressFields, amounts: seq<Number>, description: string)

  /** The facts of lines 101-127: bathrooms, bedrooms and area; home type,
      year built and lot size; heating, cooling and flooring. */
  datatype Back = Back(rooms: seq<Shown>, extras: seq<Value>, lists: seq<string>)

  /** `print_property_details`, main.py lines 70-98, raising where it
      raises: each stage in turn, the first raise ending the run. */
  function FrontFacts(data: Value): (r: Py<Front>)
    ensures r.Ok? <==>
              && data.Obj? && ResolveAddress(data).Ok? && Amounts(data, AmountKeys).Ok?
              && Describe(Lookup(data.members, "description", Str(NotFound))).Ok?
    ensures r.Ok? ==>
              && ResolveAddress(data) == Ok(r.value.address)
              && Amounts(data, AmountKeys) == Ok(r.value.amounts)
              && Describe(Lookup(data.members, "description", Str(NotFound))) == Ok(r.value.description)
  {
    var address :- ResolveAddress(data);
    var amounts :- Amounts(data, AmountKeys);
    var description :- Describe(Lookup(data.members, "description", Str(NotFound)));
    Ok(Front(address, amounts, description))
  }

  /** `print_property_details`, main.py lines 101-127, raising where it
      raises. */
  function BackFacts(data: Value): (r: Py<Back>)
    requires data.Obj?
    ensures var chip := Lookup(data.members, "formattedChip", Obj([]));
            var reso := Lookup(data.members, "resoFacts", Obj([]));
            && (r.Ok? <==> Rooms(data, chip, ChipFields).Ok? && reso.Obj? && Lists(reso, ListKeys).Ok?)
            && (r.Ok? ==> Rooms(data, chip, ChipFields) == Ok(r.value.rooms) && Lists(reso, ListKeys) == Ok(r.value.lists))
    ensures r.Ok? ==> var reso := Lookup(data.members, "resoFacts", Obj([]));
              r.value.extras == [Lookup(reso.members, "homeType", Str(NotFound)),
                                 Lookup(reso.members, "yearBuilt", Str(NotFound)),
                                 Lookup(reso.members, "lotSize", Str(NotFound))]
  {
    var rooms :- Rooms(data, Lookup(data.members, "formattedChip", Obj([])), ChipFields);
    var reso := Lookup(data.members, "resoFacts", Obj([]));
    var homeType :- Get(reso, "homeType", Str(NotFound));
    var lists :- Lists(reso, ListKeys);
    Ok(Back(rooms, [homeType, Lookup(reso.members, "yearBuilt", Str(NotFound)), Lookup(reso.members, "lotSize", Str(NotFound))], lists))
  }

  /** `print_property_details`, main.py lines 67-127: everything up to the
      weather lookup, in the order the code evaluates it, raising where it
      raises. It succeeds exactly when every stage does. */
  function Details(data: Value): (r: Py<Facts>)
    ensures r.Ok? <==> FrontFacts(data).Ok? && BackFacts(data).Ok?
    ensures r.Ok? ==> data.Obj? && ResolveAddress(data) == Ok(r.value.address)
    ensures r.Ok? ==> (r.value.zipWarning <==> r.value.address.zipcode == Str(NotFound))
    ensures r.Ok? && r.value.zipWarning ==> Stored(data).Ok? && Complete(Stored(data).value)
    ensures r.Ok? ==>
              && data.Obj?
              && FrontFacts(data) == Ok(Front(r.value.address, r.value.amounts, r.value.description))
              && BackFacts(data) == Ok(Back(r.value.rooms, r.value.extras, r.value.lists))
  {
    var front :- FrontFacts(data);
    var back :- BackFacts(data);
    Ok(Facts(front.address, front.address.zipcode == Str(NotFound), front.amounts, front.description,
             back.rooms, back.extras, back.lists))
  }

  /** The facts hold the formatted price and Zestimate, the wrapped
      description, and the chip value exactly where a primary field coerces
      to the placeholder. */
  lemma DetailsFields(data: Value)
    requires Details(data).Ok?
    ensures var f := Details(data).value;
            && data.Obj? && |f.amounts| == 2 && |f.rooms| == 3 && |f.lists| == 3
            && (forall i :: 0 <= i < 2 ==>
                  f.amounts[i] == FormatNumber(Lookup(data.members, AmountKeys[i], Null)) != Missing)
            && Describe(Lookup(data.members, "description", Str(NotFound))) == Ok(f.description)
            && (forall i :: 0 <= i < 3 ==>
                  (f.rooms[i].FromChip? <==> FormatNumber(Lookup(data.members, ChipFields[i].0, Null)) == Missing))
            && (forall i :: 0 <= i < 3 && f.rooms[i].FromChip? ==>
                  ChipValue(Lookup(data.members, "formattedChip", Obj([])), ChipFields[i].1) == Ok(f.rooms[i].v))
  {
    var front := FrontFacts(data).value;
    var back := BackFacts(data).value;
    assert Details(data).value.amounts == front.amounts && Details(data).value.rooms == back.rooms;
  }

  // ================================================================ weather and places

  /** `print_property_details`, main.py lines 135-138: reading the weather reply. A falsy reply shows nothing. */
  function ReadWeather(reply: Value): (r: Py<Option<Forecast>>)
    ensures !Truthy(reply) ==> r == Ok(None)
    ensures Truthy(reply) && !reply.Obj? ==> r.Raised?
    ensures r.Ok? && r.value.Some? ==>
              && reply.Obj? && Lookup(reply.members, "main", Obj([])).Obj?
              && r.value.value.temperature == Lookup(Lookup(reply.members, "main", Obj([])).members, "temp", Null)
    ensures reply.Obj? && Truthy(reply) ==>
              var main := Lookup(reply.members, "main", Obj([]));
              var weather := Lookup(reply.members, "weather", List([Obj([])]));
              && (!main.Obj? ==> r.Raised?)
              && (main.Obj? && weather == List([]) ==> r.Raised?)
              && (main.Obj? && !weather.List? ==> r.Raised?)
              && (main.Obj? && weather.List? && |weather.items| > 0 && !weather.items[0].Obj? ==> r.Raised?)
              && (main.Obj? && weather.List? && |weather.items| > 0 && weather.items[0].Obj? ==>
                    r == Ok(Some(Forecast(Lookup(weather.items[0].members, "description", Null),
                                          Lookup(main.members, "temp", Null)))))
  {
    if !Truthy(reply) then Ok(None)
    else
      var main :- Get(reply, "main", Obj([]));
      var temperature :- Get(main, "temp", Null);
      var first :- First(Lookup(reply.members, "weather", List([Obj([])])));
      var description :- Get(first, "description", Null);
      Ok(Some(Forecast(description, temperature)))
  }

  /** `item.get('name')` for each item, in order. */
  function Names(items: seq<Value>): (r: Py<seq<Value>>)
    ensures r.Ok? <==> forall x <- items :: x.Obj?
    ensures r.Ok? ==> |r.value| == |items|
    ensures r.Ok? ==> forall i :: 0 <= i < |items| ==> r.value[i] == Lookup(items[i].members, "name", Null)
  {
    if |items| == 0 then Ok([])
    else
      var name :- Get(items[0], "name", Null);
      var rest :- Names(items[1..]);
      assert forall x <- items[1..] :: x in items;
      Ok([name] + rest)
  }

  /** `print_property_details`, main.py lines 150-168, one category: the heading and names are shown only when
      the reply and its `results` are truthy, and then the first three
      results give the names. */
  function Category(reply: Value): (r: Py<Option<seq<Value>>>)
    ensures !Truthy(reply) ==> r == Ok(None)
    ensures Truthy(reply) && !reply.Obj? ==> r.Raised?
    ensures r.Ok? && r.value.Some? ==> reply.Obj? && Truthy(Lookup(reply.members, "results", Null))
    ensures r.Ok? && r.value.Some? && Lookup(reply.members, "results", Null).List? ==>
              var results := Lookup(reply.members, "results", Null).items;
              && |r.value.value| == (if |results| < NamesShown then |results| else NamesShown)
              && forall i :: 0 <= i < |r.value.value| ==>
                   results[i].Obj? && r.value.value[i] == Lookup(results[i].members, "name", Null)
    ensures reply.Obj? && Truthy(reply) && !Truthy(Lookup(reply.members, "results", Null)) ==> r == Ok(None)
    ensures reply.Obj? && Truthy(reply) && Truthy(Lookup(reply.members, "results", Null)) ==>
              var results := Lookup(reply.members, "results", Null);
              (r.Ok? <==> results.List? && forall i :: 0 <= i < |results.items| && i < NamesShown ==> results.items[i].Obj?)
    ensures r.Ok? && reply.Obj? && Truthy(reply) && Truthy(Lookup(reply.members, "results", Null)) ==> r.value.Some?
  {
    if !Truthy(reply) then Ok(None)
    else
      var results :- Get(reply, "results", Null);
      if !Truthy(results) then Ok(None)
      else
        LookupPresent(reply.members, "results", Null, List([]));
        var firsts :- Take(Lookup(reply.members, "results", List([])), NamesShown);
        var names :- Names(firsts);
        Ok(Some(names))
  }

  /** The three places lookups, in the order school, hospital, store; a
      category whose reply raises ends the run before the next lookup. */
  function Places(lat: Value, lon: Value, up: Upstream): (s: Step<Nearby>)
    ensures 1 <= |s.calls| <= 3
    ensures s.calls == PlacesCalls(lat, lon)[..|s.calls|]
    ensures s.result.Ok? <==> Category(up.schools).Ok? && Category(up.hospitals).Ok? && Category(up.stores).Ok?
    ensures s.result.Ok? ==>
              s.result.value == Nearby(Category(up.schools).value, Category(up.hospitals).value, Category(up.stores).value)
    ensures |s.calls| == 1 <==> Category(up.schools).Raised?
    ensures |s.calls| == 2 <==> Category(up.schools).Ok? && Category(up.hospitals).Raised?
    ensures s.result.Ok? ==> |s.calls| == 3
  {
    var all := PlacesCalls(lat, lon);
    var c1 := [NearbyPlaces(lat, lon, DefaultRadius, "school")];
    assert c1 == all[..1];
    match Category(up.schools)
    case Raised => Step(c1, Raised)
    case Ok(schools) =>
      var c2 := c1 + [NearbyPlaces(lat, lon, DefaultRadius, "hospital")];
      assert c2 == all[..2];
      match Category(up.hospitals)
      case Raised => Step(c2, Raised)
      case Ok(hospitals) =>
        var c3 := c2 + [NearbyPlaces(lat, lon, DefaultRadius, "store")];
        assert c3 == all[..3];
        match Category(up.stores)
        case Raised => Step(c3, Raised)
        case Ok(stores) => Step(c3, Ok(Nearby(schools, hospitals, stores)))
  }

  /** The places lookups a run with coordinates makes when none raises. */
  function PlacesCalls(lat: Value, lon: Value): (cs: seq<Call>)
    ensures |cs| == 3
    ensures forall i :: 0 <= i < 3 ==> cs[i].NearbyPlaces? && cs[i].lat == lat && cs[i].lon == lon && cs[i].radius == 5000
    ensures cs[0].placeType == "school" && cs[1].placeType == "hospital" && cs[2].placeType == "store"
  {
    [NearbyPlaces(lat, lon, DefaultRadius, "school"), NearbyPlaces(lat, lon, DefaultRadius, "hospital"),
     NearbyPlaces(lat, lon, DefaultRadius, "store")]
  }

  // ================================================================ the handler

  /** `not (property_details and property_details.get('status'))`, for a
      reply whose `get` does not raise. */
  predicate LookupFailed(details: Value) {
    !Truthy(details) || (details.Obj? && !Truthy(Lookup(details.members, "status", Null)))
  }

  /** The weather lookup made for a city: one when the city is truthy. */
  function WeatherCalls(city: Value): (cs: seq<Call>)
    ensures |cs| <= 1
    ensures |cs| == 1 <==> Truthy(city)
    ensures forall c <- cs :: c == CurrentWeather(city)
    ensures AsksWeather(cs) <==> Truthy(city)
    ensures !AsksPlaces(cs)
  {
    if Truthy(city) then [CurrentWeather(city)] else []
  }

  /** Some lookup of the trace is for the weather. */
  predicate AsksWeather(calls: seq<Call>) {
    |calls| > 0 && (calls[0].CurrentWeather? || AsksWeather(calls[1..]))
  }

  /** Some lookup of the trace is for nearby places. */
  predicate AsksPlaces(calls: seq<Call>) {
    |calls| > 0 && (calls[0].NearbyPlaces? || AsksPlaces(calls[1..]))
  }

  /** A trace asks for something exactly when one of its parts does. */
  lemma {:induction false} AsksAppend(a: seq<Call>, b: seq<Call>)
    ensures AsksWeather(a + b) <==> AsksWeather(a) || AsksWeather(b)
    ensures AsksPlaces(a + b) <==> AsksPlaces(a) || AsksPlaces(b)
  {
    if |a| > 0 {
      assert (a + b)[1..] == a[1..] + b;
      AsksAppend(a[1..], b);
    } else {
      assert a + b == b;
    }
  }

  /** A one-lookup trace asks for what its lookup is for. */
  lemma AsksOne(c: Call)
    ensures AsksWeather([c]) <==> c.CurrentWeather?
    ensures AsksPlaces([c]) <==> c.NearbyPlaces?
  {
    assert [c][1..] == [];
  }

  /** A non-empty prefix of the places lookups asks for places only. */
  lemma PlacesPrefix(lat: Value, lon: Value, k: nat)
    requires 1 <= k <= 3
    ensures AsksPlaces(PlacesCalls(lat, lon)[..k]) && !AsksWeather(PlacesCalls(lat, lon)[..k])
  {
    var p := PlacesCalls(lat, lon);
    assert !AsksWeather([p[2]]) && AsksPlaces([p[2]]);
    assert !AsksWeather([p[1]]) && AsksPlaces([p[1]]);
    assert !AsksWeather([p[0]]) && AsksPlaces([p[0]]);
    if k == 1 {
      assert p[..1] == [p[0]];
    } else if k == 2 {
      assert p[..2] == [p[0]] + [p[1]];
      AsksAppend([p[0]], [p[1]]);
    } else {
      assert p[..3] == [p[0]] + ([p[1]] + [p[2]]);
      AsksAppend([p[1]], [p[2]]);
      AsksAppend([p[0]], [p[1]] + [p[2]]);
    }
  }

  /** `data.get('latitude')` and `data.get('longitude')`. */
  function Latitude(data: Value): Value
    requires data.Obj?
  {
    Lookup(data.members, "latitude", Null)
  }

  function Longitude(data: Value): Value
    requires data.Obj?
  {
    Lookup(data.members, "longitude", Null)
  }

  /** `print_property_details`, main.py lines 133-170, after the facts: the weather lookup, made exactly when
      the resolved city is truthy, and then the places lookups, made exactly
      when the weather did not raise and both coordinates stored in the data
      are truthy (a coordinate of 0 counts as missing). The places come in
      the order school, hospital, store, at the stored coordinates and the
      default radius. */
  function Lookups(data: Value, facts: Facts, up: Upstream): (s: Step<Report>)
    requires data.Obj?
    ensures var city := facts.address.city;
            && (AsksWeather(s.calls) <==> Truthy(city))
            && (Truthy(city) ==> s.calls[0] == CurrentWeather(city))
    ensures AsksPlaces(s.calls) <==>
              && Truthy(Latitude(data)) && Truthy(Longitude(data))
              && (Truthy(facts.address.city) ==> ReadWeather(up.weather).Ok?)
    ensures !AsksPlaces(s.calls) ==> s.calls == WeatherCalls(facts.address.city)
    ensures AsksPlaces(s.calls) ==>
              exists k :: 1 <= k <= 3 &&
                s.calls == WeatherCalls(facts.address.city) + PlacesCalls(Latitude(data), Longitude(data))[..k]
    ensures s.result.Ok? ==>
              && s.result.value.facts == facts
              && (s.result.value.forecast.Some? ==> Truthy(facts.address.city))
              && (s.result.value.nearby.Some? <==> AsksPlaces(s.calls))
    ensures var city := facts.address.city;
            var lat := Latitude(data);
            var lon := Longitude(data);
            && (s.result.Ok? <==>
                  && (Truthy(city) ==> ReadWeather(up.weather).Ok?)
                  && (Truthy(lat) && Truthy(lon) ==> Places(lat, lon, up).result.Ok?))
            && (s.result.Ok? ==>
                  && s.result.value.forecast == (if Truthy(city) then ReadWeather(up.weather).value else None)
                  && (Truthy(lat) && Truthy(lon) ==> s.result.value.nearby == Some(Places(lat, lon, up).result.value)))
  {
    var city := facts.address.city;
    var weatherCalls := WeatherCalls(city);
    var forecast := if Truthy(city) then ReadWeather(up.weather) else Ok(None);
    match forecast
    case Raised => Step(weatherCalls, Raised)
    case Ok(f) =>
      var lat := Latitude(data);
      var lon := Longitude(data);
      if Truthy(lat) && Truthy(lon) then
        var places := Places(lat, lon, up);
        var calls := weatherCalls + places.calls;
        AsksAppend(weatherCalls, places.calls);
        PlacesPrefix(lat, lon, |places.calls|);
        match places.result
        case Raised => Step(calls, Raised)
        case Ok(nearby) => Step(calls, Ok(Report(facts, f, Some(nearby))))
      else Step(weatherCalls, Ok(Report(facts, f, None)))
  }

  /** `property_details.get('data', {})`. */
  function DataOf(details: Value): Value
    requires details.Obj?
  {
    Lookup(details.members, "data", Obj([]))
  }

  /** The run once the facts are worked out (`print_property_details`, main.py
      lines 133-170): the weather
      and places are looked up as `Lookups` says, after the property lookup.
      The weather comes right after the property; the places come after the
      weather, at the stored coordinates. */
  function Finish(zpid: string, data: Value, facts: Facts, up: Upstream): (o: Outcome)
    requires data.Obj?
    ensures |o.calls| >= 1 && o.calls[0] == PropertyDetails(zpid)
    ensures o.facts == Some(facts)
    ensures o.result.Ok? ==> o.result.value == Null
    ensures o.report.Some? <==> o.result.Ok?
    ensures o.report.Some? ==> o.report.value.facts == facts
    ensures o.result.Ok? <==> Lookups(data, facts, up).result.Ok?
    ensures o.report.Some? ==> o.report.value == Lookups(data, facts, up).result.value
    ensures AsksWeather(o.calls) <==> Truthy(facts.address.city)
    ensures AsksWeather(o.calls) ==> |o.calls| >= 2 && o.calls[1] == CurrentWeather(facts.address.city)
    ensures AsksPlaces(o.calls) <==>
              && Truthy(Latitude(data)) && Truthy(Longitude(data))
              && (Truthy(facts.address.city) ==> ReadWeather(up.weather).Ok?)
    ensures !AsksPlaces(o.calls) ==> o.calls == [PropertyDetails(zpid)] + WeatherCalls(facts.address.city)
    ensures AsksPlaces(o.calls) ==>
              exists k :: 1 <= k <= 3 &&
                o.calls == [PropertyDetails(zpid)] + (WeatherCalls(facts.address.city)
                           + PlacesCalls(Latitude(data), Longitude(data))[..k])
  {
    var first := [PropertyDetails(zpid)];
    var rest := Lookups(data, facts, up);
    AsksOne(PropertyDetails(zpid));
    AsksAppend(first, rest.calls);
    match rest.result
    case Raised => Outcome(Raised, first + rest.calls, Some(facts), None)
    case Ok(report) => Outcome(Ok(Null), first + rest.calls, Some(facts), Some(report))
  }

  /** The run once the lookup succeeded with data (`print_property_details`,
      main.py lines 67-170): the facts
      are worked out, and when nothing raised on the way the run finishes
      as `Finish` says. */
  function Proceed(zpid: string, data: Value, up: Upstream): (o: Outcome)
    ensures o.facts.Some? <==> Details(data).Ok?
    ensures o.facts.None? ==> o == Outcome(Raised, [PropertyDetails(zpid)], None, None)
    ensures o.facts.Some? ==> data.Obj? && Details(data) == Ok(o.facts.value) && o == Finish(zpid, data, o.facts.value, up)
  {
    match Details(data)
    case Raised => Outcome(Raised, [PropertyDetails(zpid)], None, None)
    case Ok(facts) => Finish(zpid, data, facts, up)
  }

  /** `get_property_details(zpid)`: the property lookup, the early exits, and
      the rest of `print_property_details`. The lookup counts as failed on a
      falsy reply or a falsy status, and then the failure message is
      returned with no further lookup; a reply with no data returns `None`
      with no further lookup; otherwise the run goes on as `Proceed` says. */
  function Handle(zpid: string, up: Upstream): (o: Outcome)
    ensures |o.calls| >= 1 && o.calls[0] == PropertyDetails(zpid)
    ensures o.result.Ok? ==> o.result.value == Null || o.result.value == FailureBody()
    ensures o.result == Ok(FailureBody()) <==> LookupFailed(up.details)
    ensures LookupFailed(up.details) ==> o.calls == [PropertyDetails(zpid)]
    ensures Truthy(up.details) && !up.details.Obj? ==> o == Outcome(Raised, [PropertyDetails(zpid)], None, None)
    ensures !LookupFailed(up.details) && up.details.Obj? && !Truthy(DataOf(up.details)) ==>
              o == Outcome(Ok(Null), [PropertyDetails(zpid)], None, None)
    ensures !LookupFailed(up.details) && up.details.Obj? && Truthy(DataOf(up.details)) ==>
              o == Proceed(zpid, DataOf(up.details), up)
    ensures o.facts.None? ==> o.calls == [PropertyDetails(zpid)] && o.report.None?
  {
    var first := [PropertyDetails(zpid)];
    var details := up.details;
    if !Truthy(details) then Outcome(Ok(FailureBody()), first, None, None)
    else
      match Get(details, "status", Null)
      case Raised => Outcome(Raised, first, None, None)
      case Ok(status) =>
        if !Truthy(status) then Outcome(Ok(FailureBody()), first, None, None)
        else
          var data := DataOf(details);
          if !Truthy(data) then Outcome(Ok(Null), first, None, None)
          else Proceed(zpid, data, up)
  }

  /** A stored price or Zestimate that `format_number` cannot coerce makes
      the handler raise, before any weather or places lookup: either when it
      formats the amount, or earlier while resolving the address. */
  lemma PlaceholderPriceRaises(zpid: string, up: Upstream)
    requires up.details.Obj? && Truthy(Lookup(up.details.members, "status", Null))
    requires DataOf(up.details).Obj? && Truthy(DataOf(up.details))
    requires || FormatNumber(Lookup(DataOf(up.details).members, "price", Null)) == Missing
             || FormatNumber(Lookup(DataOf(up.details).members, "zestimate", Null)) == Missing
    ensures Handle(zpid, up) == Outcome(Raised, [PropertyDetails(zpid)], None, None)
  {
    var data := DataOf(up.details);
    AmountsRaise(data, AmountKeys);
    assert Amounts(data, AmountKeys).Raised?;
  }

  /** A stored address with all four fields. */
  function AddressRecord(street: string, city: string, state: string, zipcode: string): Value {
    Obj([Member("streetAddress", Str(street)), Member("city", Str(city)),
         Member("state", Str(state)), Member("zipcode", Str(zipcode))])
  }

  /** Each field of such an address is found under its key. */
  lemma AddressRecordFields(street: string, city: string, state: string, zipcode: string)
    ensures var ms := AddressRecord(street, city, state, zipcode).members;
            && Lookup(ms, "streetAddress", Null) == Str(street) && Lookup(ms, "city", Null) == Str(city)
            && Lookup(ms, "state", Null) == Str(state) && Lookup(ms, "zipcode", Null) == Str(zipcode)
  {
    var ms := AddressRecord(street, city, state, zipcode).members;
    assert Lookup(ms, "city", Null) == Str(city) by {
      assert ms[0].key != "city";
      assert Lookup(ms, "city", Null) == Lookup(ms[1..], "city", Null);
    }
    assert Lookup(ms, "state", Null) == Str(state) by {
      assert ms[0].key != "state" && ms[1].key != "state";
      assert Lookup(ms[1..], "state", Null) == Lookup(ms[2..], "state", Null);
    }
    assert Lookup(ms, "zipcode", Null) == Str(zipcode) by {
      assert ms[0].key != "zipcode" && ms[1].key != "zipcode" && ms[2].key != "zipcode";
      assert Lookup(ms[1..], "zipcode", Null) == Lookup(ms[2..], "zipcode", Null);
      assert Lookup(ms[2..], "zipcode", Null) == Lookup(ms[3..], "zipcode", Null);
    }
  }

  /** `data` is a dict with no member under `key`. */
  predicate Lacks(data: Value, key: string) {
    data.Obj? && forall j :: 0 <= j < |data.members| ==> data.members[j].key != key
  }

  /** A property record holding a stored address with all four fields, a
      price and a Zestimate, and no description, chip, `resoFacts`, primary
      room fields or latitude. */
  predicate Listing(data: Value, street: string, city: string, state: string, zipcode: string, price: nat, zestimate: nat) {
    && data.Obj?
    && Lookup(data.members, "address", Obj([])) == AddressRecord(street, city, state, zipcode)
    && Lookup(data.members, "price", Null) == Int(price)
    && Lookup(data.members, "zestimate", Null) == Int(zestimate)
    && Lacks(data, "description") && Lacks(data, "formattedChip") && Lacks(data, "resoFacts")
    && Lacks(data, "bathrooms") && Lacks(data, "bedrooms") && Lacks(data, "livingAreaValue")
    && Lacks(data, "latitude")
  }

  /** A record storing such an address stores its four fields. */
  lemma StoredRecord(data: Value, street: string, city: string, state: string, zipcode: string)
    requires data.Obj? && Lookup(data.members, "address", Obj([])) == AddressRecord(street, city, state, zipcode)
    ensures Stored(data) == Ok(AddressFields(Str(street), Str(city), Str(state), Str(zipcode)))
  {
    AddressRecordFields(street, city, state, zipcode);
  }

  /** Four stored strings make a complete address exactly when none is
      empty. */
  lemma CompleteStrings(street: string, city: string, state: string, zipcode: string)
    ensures Complete(AddressFields(Str(street), Str(city), Str(state), Str(zipcode)))
            <==> street != "" && city != "" && state != "" && zipcode != ""
  {
  }

  /** A non-negative price and Zestimate stored as integers are shown as
      stored. */
  lemma StoredAmounts(data: Value, price: nat, zestimate: nat)
    requires data.Obj? && Lookup(data.members, "price", Null) == Int(price)
    requires Lookup(data.members, "zestimate", Null) == Int(zestimate)
    ensures var r := Amounts(data, AmountKeys);
            r.Ok? && |r.value| == 2 && r.value[0] == Same(Int(price)) && r.value[1] == Same(Int(zestimate))
  {
    assert FormatNumber(Lookup(data.members, AmountKeys[0], Null)) == Same(Int(price));
    assert FormatNumber(Lookup(data.members, AmountKeys[1], Null)) == Same(Int(zestimate));
    AmountsRaise(data, AmountKeys);
  }

  /** A record with no description passes the first stages exactly when
      its address resolves and its amounts format. */
  lemma FrontWithoutDescription(data: Value)
    requires Lacks(data, "description")
    ensures FrontFacts(data).Ok? <==> ResolveAddress(data).Ok? && Amounts(data, AmountKeys).Ok?
  {
    assert Lookup(data.members, "description", Str(NotFound)) == Str(NotFound);
  }

  /** A record with no chip, no `resoFacts` and no primary room fields
      passes the later stages: every one of them shows the placeholder. */
  lemma BackWithoutOptional(data: Value)
    requires Lacks(data, "formattedChip") && Lacks(data, "resoFacts")
    requires Lacks(data, "bathrooms") && Lacks(data, "bedrooms") && Lacks(data, "livingAreaValue")
    ensures BackFacts(data).Ok?
  {
    var chip := Lookup(data.members, "formattedChip", Obj([]));
    var reso := Lookup(data.members, "resoFacts", Obj([]));
    assert chip == Obj([]) && reso == Obj([]);
    assert Lacks(data, ChipFields[0].0) && Lacks(data, ChipFields[1].0) && Lacks(data, ChipFields[2].0);
    forall i | 0 <= i < 3
      ensures FormatNumber(Lookup(data.members, ChipFields[i].0, Null)) == Missing ==> ChipValue(chip, ChipFields[i].1).Ok?
    {
    }
    forall i | 0 <= i < 3
      ensures JoinItems(Lookup(reso.members, ListKeys[i], List([Str(NotFound)]))).Ok?
    {
    }
    ListsRaise(reso, ListKeys);
  }

  /** The facts are worked out, with the stored address, once the stored
      address is complete, the amounts format and the later stages succeed,
      when there is no description to wrap. */
  lemma DetailsWithoutDescription(data: Value)
    requires Lacks(data, "description") && Stored(data).Ok? && Complete(Stored(data).value)
    requires Amounts(data, AmountKeys).Ok? && BackFacts(data).Ok?
    ensures Details(data).Ok?
    ensures Details(data).value.address == Stored(data).value
    ensures Details(data).value.amounts == Amounts(data, AmountKeys).value
  {
    FrontWithoutDescription(data);
  }

  /** A reply with a true status carries its data. */
  lemma SuccessfulReply(data: Value)
    ensures var details := Obj([Member("status", Bool(true)), Member("data", data)]);
            !LookupFailed(details) && DataOf(details) == data
  {
    var ms := [Member("status", Bool(true)), Member("data", data)];
    assert ms[0].key == "status" && ms[1].key == "data";
  }

  /** A successful lookup with data whose facts are worked out goes on to
      the weather and places lookups. */
  lemma LookupSucceeds(zpid: string, data: Value, up: Upstream)
    requires up.details.Obj? && !LookupFailed(up.details)
    requires DataOf(up.details) == data && Truthy(data) && Details(data).Ok?
    ensures Handle(zpid, up) == Finish(zpid, data, Details(data).value, up)
  {
  }

  /** With a truthy city, a falsy weather reply and no stored latitude, the
      weather is looked up and shows nothing, no place is looked up, and the
      handler returns `None`. */
  lemma FinishWithoutPlaces(zpid: string, data: Value, facts: Facts, up: Upstream)
    requires Lacks(data, "latitude") && Truthy(facts.address.city) && !Truthy(up.weather)
    ensures var o := Finish(zpid, data, facts, up);
            && o.result == Ok(Null)
            && o.calls == [PropertyDetails(zpid), CurrentWeather(facts.address.city)]
            && o.facts == Some(facts)
            && o.report.Some? && o.report.value.forecast.None? && o.report.value.nearby.None?
  {
    var o := Finish(zpid, data, facts, up);
    assert Latitude(data) == Null;
    assert !AsksPlaces(o.calls);
    assert ReadWeather(up.weather) == Ok(None);
    assert WeatherCalls(facts.address.city) == [CurrentWeather(facts.address.city)];
  }

  /** A complete run: a successful lookup whose data holds a complete
      address, a non-negative price and a non-negative Zestimate and none of
      the optional fields, and a falsy weather reply. Every stage succeeds;
      the weather is looked up for the stored city and shows nothing; with
      no stored coordinates, no place is looked up; the handler returns
      `None`. */
  lemma CompleteRun(zpid: string, data: Value, street: string, city: string, state: string, zipcode: string,
                    price: nat, zestimate: nat, up: Upstream)
    requires Listing(data, street, city, state, zipcode, price, zestimate)
    requires street != "" && city != "" && state != "" && zipcode != ""
    requires up.details == Obj([Member("status", Bool(true)), Member("data", data)])
    requires !Truthy(up.weather)
    ensures var o := Handle(zpid, up);
            && o.result == Ok(Null)
            && o.calls == [PropertyDetails(zpid), CurrentWeather(Str(city))]
            && o.facts.Some? && o.facts.value.address == AddressFields(Str(street), Str(city), Str(state), Str(zipcode))
            && |o.facts.value.amounts| == 2
            && o.facts.value.amounts[0] == Same(Int(price)) && o.facts.value.amounts[1] == Same(Int(zestimate))
            && o.report.Some? && o.report.value.forecast.None? && o.report.value.nearby.None?
  {
    StoredRecord(data, street, city, state, zipcode);
    CompleteStrings(street, city, state, zipcode);
    StoredAmounts(data, price, zestimate);
    BackWithoutOptional(data);
    DetailsWithoutDescription(data);
    SuccessfulReply(data);
    LookupSucceeds(zpid, data, up);
    FinishWithoutPlaces(zpid, data, Details(data).value, up);
  }
}

=== FILE: text.dfy ===
/** Python's string operations as the service uses them, on ASCII:
    character classes (`str.isspace`, `str.isdigit`, and the regular
    expression classes `\s`, `\d`, `\w`), `strip`, `split()`, `split('\n')`
    and `join`. */
module Text {

  /** Python whitespace in ASCII: space, tab, line feed, vertical tab, form
      feed, carriage return and the four separators 0x1C-0x1F. `str.split()`,
      `str.strip()` and the regular expression class `\s` agree on it. */
  predicate IsSpace(c: char) {
    c == ' ' || '\U{9}' <= c <= '\U{D}' || '\U{1C}' <= c <= '\U{1F}'
  }

  predicate IsDigit(c: char) {
    '0' <= c <= '9'
  }

  predicate IsUpper(c: char) {
    'A' <= c <= 'Z'
  }

  /** The regular expression class `\w` on ASCII. */
  predicate IsWordChar(c: char) {
    IsDigit(c) || IsUpper(c) || 'a' <= c <= 'z' || c == '_'
  }

  /** A word as `split()` produces it: non-empty, no whitespace. */
  predicate IsWord(w: string) {
    |w| > 0 && forall i :: 0 <= i < |w| ==> !IsSpace(w[i])
  }

  predicate AllDigits(s: string) {
    forall i :: 0 <= i < |s| ==> IsDigit(s[i])
  }

  // ---------------------------------------------------------------- strip

  /** The first position at or after `i` that does not hold whitespace, or
      `|s|`. */
  function SkipSpace(s: string, i: nat): (j: nat)
    requires i <= |s|
    ensures i <= j <= |s|
    decreases |s| - i
  {
    if i < |s| && IsSpace(s[i]) then SkipSpace(s, i + 1) else i
  }

  /** The position just after the last character before `j` that is not
      whitespace, or 0. */
  function SkipSpaceBack(s: string, j: nat): (i: nat)
    requires j <= |s|
    ensures i <= j
  {
    if j > 0 && IsSpace(s[j - 1]) then SkipSpaceBack(s, j - 1) else j
  }

  lemma {:induction false} SkipSpaceSpan(s: string, i: nat)
    requires i <= |s|
    ensures forall k :: i <= k < SkipSpace(s, i) ==> IsSpace(s[k])
    ensures SkipSpace(s, i) < |s| ==> !IsSpace(s[SkipSpace(s, i)])
    decreases |s| - i
  {
    if i < |s| && IsSpace(s[i]) {
      SkipSpaceSpan(s, i + 1);
    }
  }

  lemma {:induction false} SkipSpaceBackSpan(s: string, j: nat)
    requires j <= |s|
    ensures forall k :: SkipSpaceBack(s, j) <= k < j ==> IsSpace(s[k])
    ensures SkipSpaceBack(s, j) > 0 ==> !IsSpace(s[SkipSpaceBack(s, j) - 1])
  {
    if j > 0 && IsSpace(s[j - 1]) {
      SkipSpaceBackSpan(s, j - 1);
    }
  }

  /** `s.strip()`: the piece of `s` between its leading and its trailing
      whitespace. */
  function Strip(s: string): (r: string)
    ensures var a := SkipSpace(s, 0); a + |r| <= |s| && r == s[a..a + |r|]
    ensures |r| > 0 ==> !IsSpace(r[0]) && !IsSpace(r[|r| - 1])
    ensures |r| == 0 <==> forall i :: 0 <= i < |s| ==> IsSpace(s[i])
  {
    var a := SkipSpace(s, 0);
    var b := SkipSpaceBack(s, |s|);
    SkipSpaceSpan(s, 0);
    SkipSpaceBackSpan(s, |s|);
    if a < b then s[a..b] else ""
  }

  /** What `strip` removes is whitespace. */
  lemma StripRemovesSpace(s: string)
    ensures var a := SkipSpace(s, 0);
            forall i :: 0 <= i < |s| && !(a <= i < a + |Strip(s)|) ==> IsSpace(s[i])
  {
    SkipSpaceSpan(s, 0);
    SkipSpaceBackSpan(s, |s|);
  }

  /** A string without whitespace at either end is its own strip. */
  lemma StripIdentity(s: string)
    requires |s| > 0 ==> !IsSpace(s[0]) && !IsSpace(s[|s| - 1])
    ensures Strip(s) == s
  {
  }

  /** Stripping a string that starts with a non-whitespace character keeps
      a prefix of it, and what it drops is whitespace. */
  lemma StripKeepsPrefix(s: string)
    requires |s| > 0 && !IsSpace(s[0])
    ensures Strip(s) == s[..|Strip(s)|]
    ensures forall i :: |Strip(s)| <= i < |s| ==> IsSpace(s[i])
  {
    StripRemovesSpace(s);
  }

  /** One trailing space is stripped away. */
  lemma StripTrailingSpace(s: string)
    requires |s| > 0 ==> !IsSpace(s[0]) && !IsSpace(s[|s| - 1])
    ensures Strip(s + " ") == s
  {
    var t := s + " ";
    assert SkipSpaceBack(t, |t|) == |s|;
    if |s| > 0 {
      assert t[0] == s[0];
      assert t[..|s|] == s;
    }
  }

  // ---------------------------------------------------------------- split()

  /** Length of the leading run of non-whitespace characters. */
  function WordLen(s: string): (n: nat)
    ensures n <= |s|
    ensures forall i :: 0 <= i < n ==> !IsSpace(s[i])
    ensures n < |s| ==> IsSpace(s[n])
  {
    if |s| == 0 || IsSpace(s[0]) then 0 else 1 + WordLen(s[1..])
  }

  /** `s.split()`: the maximal runs of non-whitespace characters, in order. */
  function Words(s: string): (ws: seq<string>)
    ensures forall w <- ws :: IsWord(w)
    decreases |s|
  {
    if |s| == 0 then []
    else if IsSpace(s[0]) then Words(s[1..])
    else
      var n := WordLen(s);
      [s[..n]] + Words(s[n..])
  }

  lemma {:induction false} WordLenAppend(x: string, y: string)
    requires WordLen(x) < |x| || (|y| > 0 && IsSpace(y[0]))
    ensures WordLen(x + y) == WordLen(x)
  {
    if |x| > 0 && !IsSpace(x[0]) {
      assert (x + y)[1..] == x[1..] + y;
      WordLenAppend(x[1..], y);
    }
  }

  lemma WordsOfWord(w: string)
    requires IsWord(w)
    ensures Words(w) == [w]
  {
    assert w[..|w|] == w && w[|w|..] == [];
  }

  /** A whitespace character separates words: splitting around it splits
      each side independently. */
  lemma {:induction false} WordsSplitAt(a: string, c: char, b: string)
    requires IsSpace(c)
    ensures Words(a + [c] + b) == Words(a) + Words(b)
    decreases |a|
  {
    if |a| == 0 {
      assert (a + [c] + b)[1..] == b;
    } else if IsSpace(a[0]) {
      WordsSkipSpace(a, c, b);
      WordsSplitAt(a[1..], c, b);
    } else {
      WordsSplitWord(a, c, b);
      WordsSplitAt(a[WordLen(a)..], c, b);
    }
  }

  lemma WordsSkipSpace(a: string, c: char, b: string)
    requires |a| > 0 && IsSpace(a[0])
    ensures Words(a + [c] + b) == Words(a[1..] + [c] + b)
  {
    assert (a + [c] + b)[1..] == a[1..] + [c] + b;
  }

  /** The first word of `a + [c] + b`, for whitespace `c`, is the first word
      of `a` when `a` starts with one. */
  lemma WordsSplitWord(a: string, c: char, b: string)
    requires IsSpace(c) && |a| > 0 && !IsSpace(a[0])
    ensures var n := WordLen(a);
            Words(a + [c] + b) == [a[..n]] + Words(a[n..] + [c] + b)
  {
    var s := a + [c] + b;
    var n := WordLen(a);
    assert s == a + ([c] + b);
    WordLenAppend(a, [c] + b);
    assert s[..n] == a[..n];
    assert s[n..] == a[n..] + [c] + b;
  }

  // ---------------------------------------------------------------- join

  /** `sep.join(ws)`. */
  function Join(ws: seq<string>, sep: string): string {
    if |ws| == 0 then ""
    else if |ws| == 1 then ws[0]
    else ws[0] + sep + Join(ws[1..], sep)
  }

  /** Splitting words joined by one space gives back the words. */
  lemma {:induction false} WordsOfJoin(ws: seq<string>)
    requires forall w <- ws :: IsWord(w)
    ensures Words(Join(ws, " ")) == ws
  {
    if |ws| == 1 {
      WordsOfWord(ws[0]);
    } else if |ws| > 1 {
      WordsOfJoin(ws[1..]);
      WordsOfWord(ws[0]);
      WordsSplitAt(ws[0], ' ', Join(ws[1..], " "));
    }
  }

  /** Joining whitespace-free words by spaces yields a string that has no
      line break and no whitespace at either end. */
  lemma {:induction false} JoinShape(ws: seq<string>)
    requires forall w <- ws :: IsWord(w)
    ensures '\n' !in Join(ws, " ")
    ensures var j := Join(ws, " "); |j| > 0 ==> !IsSpace(j[0]) && !IsSpace(j[|j| - 1])
    ensures |ws| > 0 ==> |Join(ws, " ")| > 0
  {
    if |ws| > 1 {
      JoinShape(ws[1..]);
      assert ws[0] in ws;
      var j := Join(ws, " ");
      var rest := Join(ws[1..], " ");
      assert j == ws[0] + " " + rest;
      assert j[0] == ws[0][0];
      assert j[|j| - 1] == rest[|rest| - 1];
      forall i | 0 <= i < |j|
        ensures j[i] != '\n'
      {
        if i < |ws[0]| {
          assert j[i] == ws[0][i];
        } else if i > |ws[0]| {
          assert j[i] == Join(ws[1..], " ")[i - |ws[0]| - 1];
        }
      }
    } else if |ws| == 1 {
      assert ws[0] in ws;
      assert forall i :: 0 <= i < |ws[0]| ==> ws[0][i] != '\n';
    }
  }

  // ---------------------------------------------------------------- split('\n')

  /** `s.split('\n')`: the pieces between line breaks (always at least one). */
  function Lines(s: string): (ls: seq<string>)
    ensures |ls| >= 1
  {
    if |s| == 0 then [""]
    else
      var rest := Lines(s[1..]);
      if s[0] == '\n' then [""] + rest else [[s[0]] + rest[0]] + rest[1..]
  }

  lemma {:induction false} LinesOfLine(a: string)
    requires '\n' !in a
    ensures Lines(a) == [a]
  {
    if |a| > 0 {
      LinesOfLine(a[1..]);
      assert [a[0]] + a[1..] == a;
    }
  }

  /** A line break splits the text into the lines before and after it. */
  lemma {:induction false} LinesSplitAt(a: string, b: string)
    ensures Lines(a + "\n" + b) == Lines(a) + Lines(b)
  {
    var s := a + "\n" + b;
    if |a| == 0 {
      assert s[1..] == b;
    } else {
      assert s[1..] == a[1..] + "\n" + b;
      LinesSplitAt(a[1..], b);
    }
  }

  lemma {:induction false} WordsOfBlank(s: string)
    requires forall i :: 0 <= i < |s| ==> IsSpace(s[i])
    ensures Words(s) == []
  {
    if |s| > 0 {
      WordsOfBlank(s[1..]);
    }
  }

  // ---------------------------------------------------------------- int() and str()

  function DigitValue(c: char): nat
    requires IsDigit(c)
  {
    c as int - '0' as int
  }

  function DigitChar(d: nat): (c: char)
    requires d < 10
    ensures IsDigit(c) && DigitValue(c) == d
  {
    ('0' as int + d) as char
  }

  /** `int(s)` for a non-empty string of ASCII digits (leading zeros are
      allowed, as Python allows them). */
  function DigitsValue(s: string): nat
    requires AllDigits(s)
  {
    if |s| == 0 then 0 else 10 * DigitsValue(s[..|s| - 1]) + DigitValue(s[|s| - 1])
  }

  /** `str(n)` for a natural number: its decimal digits, without leading
      zeros. */
  function ShowNat(n: nat): (r: string)
    ensures |r| > 0 && AllDigits(r)
    ensures r[0] == '0' ==> n == 0
  {
    if n < 10 then [DigitChar(n)] else ShowNat(n / 10) + [DigitChar(n % 10)]
  }

  /** `int(str(n)) == n`. */
  lemma {:induction false} DigitsOfShowNat(n: nat)
    ensures DigitsValue(ShowNat(n)) == n
  {
    if n >= 10 {
      var s := ShowNat(n);
      DigitsOfShowNat(n / 10);
      assert s[..|s| - 1] == ShowNat(n / 10);
    }
  }
}

=== FILE: values.dfy ===
/** The Python values that flow through the service: decoded JSON from the
    upstream APIs, and the few operations the code applies to them
    (truthiness, `dict.get`, iteration, `[0]` and `[:n]`), each raising
    exactly where Python would. */
module Values {
  import opened Wrappers

  /** A decoded JSON value. `Real` is a Python float, kept as its exact
      value; `Obj` is a dict whose members keep the decoded order (a decoded
      JSON object holds each key once). */
  datatype Value =
    | Null
    | Bool(b: bool)
    | Int(i: int)
    | Real(r: real)
    | Str(s: string)
    | List(items: seq<Value>)
    | Obj(members: seq<Member>)

  datatype Member = Member(key: string, val: Value)

  /** Python truthiness: `None`, `False`, zero, and empty strings,
      lists and dicts are falsy. */
  predicate Truthy(v: Value) {
    match v
    case Null => false
    case Bool(b) => b
    case Int(i) => i != 0
    case Real(r) => r != 0.0
    case Str(s) => s != ""
    case List(xs) => xs != []
    case Obj(ms) => ms != []
  }

  /** The value of the first member stored under `key`, or `default` when
      no member carries it. */
  function Lookup(ms: seq<Member>, key: string, default: Value): (r: Value)
    ensures (forall j :: 0 <= j < |ms| ==> ms[j].key != key) ==> r == default
    ensures r == default || exists j :: 0 <= j < |ms| && ms[j].key == key && ms[j].val == r
    ensures forall j ::
              (0 <= j < |ms| && ms[j].key == key && forall k :: 0 <= k < j ==> ms[k].key != key)
              ==> r == ms[j].val
  {
    if |ms| == 0 then default
    else if ms[0].key == key then ms[0].val
    else Lookup(ms[1..], key, default)
  }

  /** When the key is present, the default does not matter. */
  lemma {:induction false} LookupPresent(ms: seq<Member>, key: string, d1: Value, d2: Value)
    requires Lookup(ms, key, d1) != d1
    ensures Lookup(ms, key, d2) == Lookup(ms, key, d1)
  {
    if |ms| > 0 && ms[0].key != key {
      LookupPresent(ms[1..], key, d1, d2);
    }
  }

  /** `d.get(key, default)`: every value other than a dict lacks `get`, so the
      call raises `AttributeError`. */
  function Get(d: Value, key: string, default: Value): (r: Py<Value>)
    ensures r.Raised? <==> !d.Obj?
    ensures d.Obj? && (forall m <- d.members :: m.key != key) ==> r == Ok(default)
    ensures d.Obj? ==>
              forall j ::
                (0 <= j < |d.members| && d.members[j].key == key && forall k :: 0 <= k < j ==> d.members[k].key != key)
                ==> r == Ok(d.members[j].val)
    ensures d.Obj? ==> r == Ok(Lookup(d.members, key, default))
  {
    if d.Obj? then Ok(Lookup(d.members, key, default)) else Raised
  }

  /** The one-character strings a Python string iterates over. */
  function Chars(s: string): (r: seq<Value>)
    ensures |r| == |s|
    ensures forall i :: 0 <= i < |s| ==> r[i] == Str([s[i]])
  {
    seq(|s|, i requires 0 <= i < |s| => Str([s[i]]))
  }

  /** The keys of a dict, as the strings iterating over it yields. */
  function MemberKeys(ms: seq<Member>): (r: seq<Value>)
    ensures |r| == |ms|
    ensures forall i :: 0 <= i < |ms| ==> r[i] == Str(ms[i].key)
  {
    seq(|ms|, i requires 0 <= i < |ms| => Str(ms[i].key))
  }

  /** `for x in v`: lists yield their items, strings their characters and
      dicts their keys; `None`, booleans and numbers are not iterable. */
  function Iter(v: Value): (r: Py<seq<Value>>)
    ensures r.Raised? <==> !(v.List? || v.Str? || v.Obj?)
    ensures v.List? ==> r == Ok(v.items)
    ensures v.Str? ==> r == Ok(Chars(v.s))
    ensures v.Obj? ==> r.Ok? && |r.value| == |v.members| && forall i :: 0 <= i < |v.members| ==> r.value[i] == Str(v.members[i].key)
    ensures r.Ok? ==> (|r.value| == 0 <==> !Truthy(v))
  {
    match v
    case List(xs) => Ok(xs)
    case Str(s) => Ok(Chars(s))
    case Obj(ms) => Ok(MemberKeys(ms))
    case _ => Raised
  }

  /** `v[0]`: an empty list or string raises `IndexError`, a dict (whose keys
      are strings) raises `KeyError`, anything else is not subscriptable. */
  function First(v: Value): (r: Py<Value>)
    ensures r.Ok? <==> (v.List? || v.Str?) && Truthy(v)
    ensures r.Ok? && v.List? ==> r.value == v.items[0]
    ensures r.Ok? && v.Str? ==> r.value == Str([v.s[0]])
  {
    match v
    case List(xs) => if |xs| > 0 then Ok(xs[0]) else Raised
    case Str(s) => if |s| > 0 then Ok(Str([s[0]])) else Raised
    case _ => Raised
  }

  /** The items `for x in v[:n]` visits: a prefix of a list, or the first
      characters of a string; slicing anything else raises. */
  function Take(v: Value, n: nat): (r: Py<seq<Value>>)
    ensures r.Ok? <==> v.List? || v.Str?
    ensures v.List? ==> r == Ok(v.items[..if |v.items| < n then |v.items| else n])
    ensures v.Str? ==> r == Ok(Chars(v.s)[..if |v.s| < n then |v.s| else n])
  {
    match v
    case List(xs) => Ok(xs[..if |xs| < n then |xs| else n])
    case Str(s) => var cs := Chars(s); Ok(cs[..if |cs| < n then |cs| else n])
    case _ => Raised
  }
}

=== FILE: wrappers.dfy ===
/** Failure-compatible wrappers shared by the whole model. */
module Wrappers {

  /** An optional value: Python's `None` or a value. */
  datatype Option<+T> = None | Some(value: T)

  /** The outcome of evaluating a piece of Python: either it returns a value,
      or an exception is raised and propagates to the caller. The model does
      not distinguish exception classes; every exception escapes the handler. */
  datatype Py<+T> = Ok(value: T) | Raised {

    predicate IsFailure() {
      Raised?
    }

    function PropagateFailure<U>(): Py<U>
      requires Raised?
    {
      Raised
    }

    function Extract(): T
      requires Ok?
    {
      value
    }
  }
}
